=== FILE: README.md ===
# Virtual assistants: command routing and the AI connector

This project models the decision logic of two Spanish-language desktop
assistants written in Python, and proves properties about it in Dafny.

- `asistente_con_ia.py` has two parts:
  - `ConectorIA` keeps a credential mapping and a conversation history of at
    most ten turns. It shapes the request sent to OpenAI, Gemini or Hugging
    Face, turns each provider's answer or failure into the string shown to
    the user, and picks the provider either automatically or by name.
  - `AsistenteVirtualIA.procesar_comando` routes an utterance. It tries an
    ordered chain of local commands (configure, greeting, time, date,
    browser, `buscar `, farewell, help), and hands anything else to the
    connector.
- `asistente_reparado.py` has `AsistenteVirtual.procesar_comando`: eleven
  keyword rules tried in order, a search-term extraction loop, a Spanish
  date reply, and a default reply.

The Dafny modules:

- `Text`: the Python `str` operations the assistants use. These are
  `lower`, `strip`, `split`, `p in s`, `replace` and `startswith`, plus the
  decimal formatting of integers.
- `Rules`: the rule tables (first passing test wins), `random.choice`, and
  the Google query URL.
- `Clock`: the clock reading, passed in as a value.
- `AiConnector`: `ConectorIA`, as the class `Connector` over value-level
  specification functions.
- `AiAssistant`: `AsistenteVirtualIA`.
- `SearchTerms`: the keyword-deletion loop of asistente_reparado.py.
- `Assistant`: `AsistenteVirtual.procesar_comando`.

Effects become parameters or results:

- The clock is a `DateTime` parameter.
- `random.choice` takes a `pick` index.
- `webbrowser.open` is the page recorded in the reply. Where the source
  catches its exception, an optional failure text stands for it.
- An HTTP call is a function value from the request to `Answered` (status,
  body and decoded payload), `TimedOut` or `Raised`.
- The contents of config.json are an optional mapping. How writing them
  ended is a `Save` value: written, not opened, or truncated and cut short.

## Model

| member | source | states |
|---|---|---|
| Text.NormalizeIdempotent | asistente_reparado.py:113 | lower-casing then stripping twice equals doing it once |
| Text.StripEmptyIff | asistente_reparado.py:156-158 | `strip()` yields the empty string exactly when every character is whitespace |
| Text.NatToString | asistente_reparado.py:140 | an integer in an f-string is a non-empty run of digits with no leading zero |
| Text.LowerFolds | asistente_con_ia.py:295 | `lower()` keeps the length, leaves no capital, moves each capital 32 code points down to its small letter and leaves every other character as it is; it is idempotent |
| Text.Strip | asistente_reparado.py:113 | `strip()` never lengthens, and what it returns is empty or starts and ends with a non-whitespace character |
| Text.StripIsInfix | asistente_reparado.py:113 | what `strip()` removes is whitespace at the two ends, and what it keeps is one contiguous piece of the input |
| Text.ContainsIffOccurs | asistente_reparado.py:116 | `p in s` holds exactly when `p` occurs in `s` at some index |
| Text.RemoveAll | asistente_con_ia.py:322 | `s.replace(p, "")` never lengthens `s` |
| Text.RemoveAllAbsent | asistente_con_ia.py:322 | a string that does not contain `p` is returned unchanged |
| Text.RemoveAllLength | asistente_con_ia.py:170 | the result is shorter by the length of `p` for each non-overlapping occurrence, counted left to right |
| Text.Words | asistente_con_ia.py:299 | every element of `split()` is non-empty and free of whitespace |
| Text.WordsAppendWord | asistente_con_ia.py:299 | a word followed by nothing or by whitespace is the first element of `split()`, and the rest is the split of what follows |
| Text.WordsTwoWords | asistente_con_ia.py:299 | two words separated by whitespace, followed by nothing or by whitespace, are the first two elements of `split()`, and the rest is the split of what follows |
| Text.WordsEmptyIff | asistente_con_ia.py:299 | `split()` returns no element exactly when the string is all whitespace |
| Clock.HourMinute | asistente_reparado.py:127 | `%H:%M` is five characters, a colon in the middle, and its two fields read back as the hour and the minute |
| Rules.FirstPassing | asistente_reparado.py:116-234 | the index found is that of a passing rule and no earlier rule passes; it is the table's length when none passes |
| Rules.SearchUrl | asistente_reparado.py:160 | the query URL contains no space |
| Rules.SearchUrlSpellsTerm | asistente_reparado.py:160 | the URL is `https://www.google.com/search?q=` followed by the term character for character, each space written as `+` |
| Rules.Choose | asistente_reparado.py:123 | `random.choice` returns one of the listed replies |
| Rules.ChooseCovers | asistente_reparado.py:123 | every listed reply can be drawn |
| AiConnector.LastIsNewest | asistente_con_ia.py:196 | `xs[-n:]` is the newest min(n, len) elements, in order |
| AiConnector.Record | asistente_con_ia.py:186-196 | after recording, the history is non-empty, holds at most ten turns and ends with the new turn |
| AiConnector.RecordBoundedFifo | asistente_con_ia.py:186-196 | after recording a turn the history holds min(old+1, 10) turns and ends with the new turn; below the bound it is an append, at the bound the oldest turn is evicted |
| AiConnector.LedgerKeepsNewest | asistente_con_ia.py:186-196 | after any run of recorded turns the history is exactly the newest ten of them, oldest first |
| AiConnector.LoadApiKeys | asistente_con_ia.py:35-44 | a missing or unreadable config.json yields the empty mapping; a parsed document is returned as it is |
| AiConnector.WithKey | asistente_con_ia.py:55-59 | the service is added if absent and its `"key"` is set; its other fields and every other service are unchanged |
| AiConnector.Connector.constructor | asistente_con_ia.py:30-33 | keys are loaded from the stored document, the history is empty |
| AiConnector.Connector.ConfigureApiKey | asistente_con_ia.py:46-60 | the in-memory mapping becomes WithKey of the old one however the save ends; the stored document becomes that mapping when written in full, stays as it was when config.json could not be opened, and becomes unreadable when the file was truncated and the dump then failed |
| AiConnector.FirstConfigured | asistente_con_ia.py:200-207 | the provider returned has a key and is in the priority list; none is returned exactly when no listed provider has a key |
| AiConnector.SelectProvider | asistente_con_ia.py:198-215 | with "auto": OpenAI iff it has a key, else Gemini iff it has a key, else Hugging Face; otherwise the named provider, or none for an unknown name |
| AiConnector.AutoFollowsPriority | asistente_con_ia.py:200-207 | automatic choice is the first configured provider of [OpenAI, Gemini], falling back to Hugging Face |
| AiConnector.ConfiguringOpenAIWins | asistente_con_ia.py:202-203 | after an OpenAI key is configured, "auto" always picks OpenAI |
| AiConnector.DialogueShape | asistente_con_ia.py:75-77 | two messages per turn: the user prompt at 2i and the assistant response at 2i+1 |
| AiConnector.ChatMessagesShape | asistente_con_ia.py:74-79 | 2k+1 messages for k = min(5, len(history)), alternating over the newest k turns in order, ending with the new user message |
| AiConnector.BuildChatMessages | asistente_con_ia.py:74-79 | the loop builds exactly ChatMessages |
| AiConnector.GeminiContextAppend | asistente_con_ia.py:117-119 | the context of two runs of turns is the concatenation of their contexts |
| AiConnector.GeminiPromptShape | asistente_con_ia.py:117-121 | the prompt is the blocks `Usuario: p\nAsistente: r\n\n` of the newest (at most three) turns, oldest first, then `Usuario: m\nAsistente:` |
| AiConnector.BuildGeminiPrompt | asistente_con_ia.py:117-121 | the loop builds exactly GeminiPrompt |
| AiConnector.InferenceReplyWithoutEcho | asistente_con_ia.py:170 | a completion that does not contain the prompt is only stripped |
| AiConnector.InferenceReplyDropsEchoes | asistente_con_ia.py:170-175 | each echoed copy of the prompt shortens the reply by its length; a bare echo leaves an empty reply |
| AiConnector.InferenceReply | asistente_con_ia.py:170 | the reply is no longer than the completion and starts and ends with a non-whitespace character, or is empty |
| AiConnector.ReadChat | asistente_con_ia.py:95-106 | a 200 answer with a content replies with it; any other status gives `❌ Error de OpenAI: <status> - <body>`; a timeout gives the timeout message; an exception or an undecodable answer gives `❌ Error conectando con OpenAI: ` and its text |
| AiConnector.ReadGenerate | asistente_con_ia.py:137-151 | a 200 answer with a first candidate replies with its text; no candidate gives "No se recibió respuesta válida de Gemini"; any other status gives `❌ Error de Gemini: <status>`; a timeout gives the timeout message; an exception or an undecodable answer gives `❌ Error conectando con Gemini: ` and its text |
| AiConnector.ReadInference | asistente_con_ia.py:167-184 | a 200 list answer replies with the first text, echo removed and stripped, when that is non-empty, and otherwise gives "No pude generar una respuesta adecuada"; a non-list gives "Respuesta inesperada del modelo"; any other status gives `❌ Error de Hugging Face: <status>`; a timeout gives the timeout message; an exception gives `❌ Error conectando con Hugging Face: ` and its text |
| AiConnector.OpenAIOutcome | asistente_con_ia.py:62-106 | no key gives the key-missing message; with a key, the outcome is ReadChat of the answer to the request built from the history; a reply happens iff there is a key and the call answers 200 with a content, and then it is that content |
| AiConnector.GeminiOutcome | asistente_con_ia.py:108-151 | no key gives the key-missing message; with a key, the outcome is ReadGenerate of the answer to the prompt built from the history; a reply needs a 200 answer with a first candidate and is its text |
| AiConnector.HuggingFaceOutcome | asistente_con_ia.py:153-184 | no key is needed: the outcome is ReadInference of the answer; a reply happens iff the call answers 200 with a list whose first text, echo removed and stripped, is non-empty, and then it is that text |
| AiConnector.Answer | asistente_con_ia.py:198-215 | an unknown service gives "Servicio de IA no reconocido"; otherwise the selected provider's outcome |
| AiConnector.Commit | asistente_con_ia.py:95-99 | a failed call leaves the history as it was; a reply ends it with the new turn; the ten-turn bound is kept |
| AiConnector.UnconfiguredTimeout | asistente_con_ia.py:181-182 | with no keys a timed-out Hugging Face call gives the timeout message and leaves the history unchanged |
| AiConnector.Connector.AddToHistory | asistente_con_ia.py:186-196 | the history becomes Record of the old one, and stays within ten turns |
| AiConnector.Connector.Settle | asistente_con_ia.py:95-99 | the turn is recorded only on a reply; on a failure the history is unchanged |
| AiConnector.Connector.AskOpenAI | asistente_con_ia.py:62-106 | returns OpenAIOutcome's text; the history is recorded on success only |
| AiConnector.Connector.AskGemini | asistente_con_ia.py:108-151 | returns GeminiOutcome's text; the history is recorded on success only |
| AiConnector.Connector.AskHuggingFace | asistente_con_ia.py:153-184 | returns HuggingFaceOutcome's text; the history is recorded on success only |
| AiConnector.Connector.Ask | asistente_con_ia.py:198-215 | returns Answer's text; the history is recorded on success only |
| AiAssistant.RouteFollowsTable | asistente_con_ia.py:298-355 | the if/elif chain is the branch of the first passing test of the rule table, AI when none passes |
| AiAssistant.ClassifyIgnoresCase | asistente_con_ia.py:295 | the branch depends only on the lower-cased, stripped utterance |
| AiAssistant.ClassifyFollowsTable | asistente_con_ia.py:295-355 | an utterance takes the branch of the first rule that its lower-cased, stripped form passes |
| AiAssistant.ConfigureNamesService | asistente_con_ia.py:298-302 | "configurar", whitespace and a service name: the reply tells how to configure that service, whatever follows it |
| AiAssistant.ConfigureAloneShowsUsage | asistente_con_ia.py:298-304 | "configurar" followed by nothing but whitespace gets the usage hint |
| AiAssistant.EnglishDate | asistente_con_ia.py:313-315 | the date is the weekday's English name, ", ", the day in two digits that read back as the day of the month, " de ", the month's English name, " de " and the year |
| AiAssistant.Dispatch | asistente_con_ia.py:292-355 | the AI branch is taken iff no local command matched, and it receives the utterance as typed; only the browser and search branches open a page; a farewell is one of the listed three; search opens the query for the term and echoes it |
| AiAssistant.DispatchLocalReplies | asistente_con_ia.py:298-355 | configure answers for the normalised utterance; greeting, time, date, browser and help give their fixed texts, the time as `%H:%M` and the date as EnglishDate; only the browser opens Google's home page |
| AiAssistant.SearchTermOf | asistente_con_ia.py:321-324 | the term of a stripped `buscar ...` is non-empty and ends where the utterance ends; it is the rest when that holds no further `buscar `; its URL has no space |
| AiAssistant.SearchTermShape | asistente_con_ia.py:321-324 | every utterance routed to search starts with `buscar ` after normalising, so SearchTermOf applies |
| AiAssistant.GreetingBeforeTime | asistente_con_ia.py:307-311 | "hola, dime la hora" is greeted, not told the time |
| AiAssistant.SearchRouteExample | asistente_con_ia.py:298-321 | "buscar gatos" passes no earlier test and reaches the search branch |
| AiAssistant.SearchTermExample | asistente_con_ia.py:322-323 | the term of "buscar gatos" is "gatos" and the query URL ends in `q=gatos` |
| AiAssistant.AssistantAI.constructor | asistente_con_ia.py:217-221 | a named assistant with a fresh connector whose history is empty |
| AiAssistant.AssistantAI.ProcessCommand | asistente_con_ia.py:292-355 | local branches answer without touching the history; otherwise the utterance as typed goes to the automatic provider choice, which records the turn only on success |
| SearchTerms.StepAbsent | asistente_reparado.py:156 | a stripped string without the keyword goes through a round unchanged |
| SearchTerms.StepLeading | asistente_reparado.py:156 | a round on `kw + " " + t` leaves exactly `t` when `t` is stripped and holds no `kw` |
| SearchTerms.ListedOrderLeavesR | asistente_reparado.py:153-156 | in the listed order, "buscar " before a plain term leaves "r " before it |
| SearchTerms.BuscarExtracts | asistente_reparado.py:153-156 | with "buscar" first, "buscar " before a plain term leaves the term |
| SearchTerms.BuscaExtracts | asistente_reparado.py:153-156 | with "buscar" first, "busca " before a plain term leaves the term |
| SearchTerms.SearchExtracts | asistente_reparado.py:153-156 | with "buscar" first, "search " before a plain term leaves the term |
| SearchTerms.LongestFirstExtracts | asistente_reparado.py:151-156 | every keyword followed by a plain term leaves exactly the term |
| SearchTerms.ExtractSearchTerm | asistente_reparado.py:154-156 | the loop deletes each keyword in turn and strips, i.e. computes RemoveEach |
| Assistant.RouteFollowsTable | asistente_reparado.py:116-234 | the if/elif chain is the branch of the first passing rule of the table, the default when none passes |
| Assistant.ClassifyIgnoresCase | asistente_reparado.py:113 | the branch depends only on the lower-cased, stripped utterance |
| Assistant.ClassifyFollowsTable | asistente_reparado.py:113-234 | an utterance takes the branch of the first rule that its lower-cased, stripped form passes |
| Assistant.TiempoAsksTime | asistente_reparado.py:126 | any utterance containing "tiempo" and no greeting word gets the time reply |
| Assistant.ClimateOnlyByName | asistente_reparado.py:177 | the climate branch is reached only through "clima" or "temperatura", never with "tiempo" present |
| Assistant.SpanishDate | asistente_reparado.py:131-140 | the date is the weekday's Spanish name, ", ", a run of digits without a leading zero that reads back as the clock's day, " de ", the month's Spanish name, " de " and a run of digits that reads back as the clock's year |
| Assistant.Respond | asistente_reparado.py:111-234 | greeting, farewell, thanks, status and default replies are members of their lists; a page is opened only without failure and only by browser, search, YouTube or climate; an empty search term asks what to search, otherwise the query URL has no space |
| Assistant.RespondLocalReplies | asistente_reparado.py:126-228 | the time reply is "Son las" and `%H:%M`; the date reply is "Hoy es" and SpanishDate; help gives the help text; none opens a page |
| Assistant.RespondOpensPages | asistente_reparado.py:143-182 | when the browser opens, the browser, YouTube and climate branches open Google, YouTube and weather.com with their success texts, and a search with a term opens its query and says what it searches for |
| Assistant.RespondReportsFailure | asistente_reparado.py:143-182 | when the browser raises, each of those four branches replies with its error prefix and the exception text, and opens nothing |
| Assistant.RespondAsWritten | asistente_reparado.py:151-156 | as written, the search branch raises, and it is the only branch that does; every other branch replies as Respond |
| Assistant.BuscaGatosSearches | asistente_reparado.py:116-151 | "busca gatos" passes no rule before the search rule |
| Assistant.AsWrittenSearchRaises | asistente_reparado.py:155-156 | as written, "busca gatos" raises the undefined-name error |
| Assistant.ProcessCommand | asistente_reparado.py:111-234 | the command, its search loop run with "buscar" first, computes Respond |

## Left out

- Tk windows, the animation and the on-screen history are not modelled. They are presentation only.
- Voice input and output (`escuchar`, `hablar`, `configurar_voz`) are not modelled. They are foreign calls into `speech_recognition` and `pyttsx3`.
- The threads that run commands in the background are not modelled. They are concurrency only.
- HTTP is not modelled:
  - Headers and URLs are not modelled. Only the key each request carries is.
  - JSON decoding is not modelled. Each provider's decoded payload is an input, so a payload that fails to decode is a `…Malformed` value carrying the exception text.
- `str(e)` of an exception is the text carried by `Raised` or by the failure parameter, not the exception object.
- AiConnector.LoadApiKeys: the document is taken to be a JSON object whose values are objects of strings. Other shapes are not modelled. A `null` or a number makes the first membership test raise TypeError, outside any `try`: the `"openai" in self.api_keys` of the automatic choice (asistente_con_ia.py:202), or the `"openai" not in self.api_keys` of `obtener_respuesta_openai` (asistente_con_ia.py:64). A list makes `configurar_api_key` raise TypeError at the item assignment. A string value turns `"key" in ...` into a substring test.
- File I/O on config.json is not modelled. The parsed document is an input, and how a save ended is a `Save` value. The error printed by a failed save is not modelled.
- The clock is not modelled. It is a `DateTime` parameter, and the timestamp of a recorded turn is a string parameter.
- Text.Lower: lower-cases ASCII and Latin-1 capitals only. Other scripts are left as they are.
- AiAssistant.EnglishDate: `%A` and `%B` are taken in the C locale, as English names; a process running under another locale would print other names. A year below 1000 is written without the leading zeros `%Y` would give.
- `webbrowser.open` in asistente_con_ia.py is not guarded by the source. The model records the page and does not model an exception from it.
- `AsistenteVirtualIA.nombre` is the constant `name`. Its `activo` flag and voice engine, and the fields of `AsistenteVirtual`, are not modelled. `procesar_comando` reads none of them.
- `main()` and the dependency checks at import time are not modelled.

## Findings

| source | as written | input that shows it | evidently intended | confidence | as-written member | corrected member |
|---|---|---|---|---|---|---|
| asistente_reparado.py:155-156 | the loop reads `termino_busquida`, a name bound nowhere, so the search branch raises NameError | "busca gatos" | the loop variable `termino_busqueda` is deleted on each round | not executed | Assistant.RespondAsWritten, Assistant.AsWrittenSearchRaises | Assistant.Respond, Assistant.ProcessCommand |
| asistente_reparado.py:153-156 | once the loop variable's name is corrected, "busca" is deleted before "buscar", cutting "buscar" short; as written, the NameError of the row above masks this, and SearchTermAsListed models the loop with the name corrected | "buscar gatos" leaves the term "r gatos" | the term is "gatos": "buscar" is deleted before its prefix "busca" | not executed | SearchTerms.SearchTermAsListed, SearchTerms.ListedOrderLeavesR | SearchTerms.SearchTerm, SearchTerms.LongestFirstExtracts |

=== FILE: ai_assistant.dfy ===
/**
 * `AsistenteVirtualIA.procesar_comando` of asistente_con_ia.py: local
 * commands are recognised on the lower-cased, stripped utterance by an
 * ordered chain of tests, the first passing test deciding; anything else
 * is handed, as typed, to the connector's automatic provider choice.
 *
 * The clock, `random.choice` and `webbrowser.open` are inputs and outputs:
 * the current time and the random draw are parameters, and the page a
 * branch opens is part of its response.
 */
module AiAssistant {
  import opened Optional
  import opened Text
  import opened Rules
  import opened Clock
  import opened AiConnector

  /** The branches of `procesar_comando`, in the order they are tried. */
  datatype Branch = Configure | Greeting | Time | Date | Browser | Search | Farewell | Help | AskAI

  const ConfigurePrefix: string := "configurar"
  const GreetingWords: seq<string> := ["hola", "buenos días", "buenas tardes", "hey"]
  const TimeWords: seq<string> := ["hora", "qué hora"]
  const DateWords: seq<string> := ["fecha", "qué día"]
  const BrowserWords: seq<string> := ["abrir navegador", "abre internet"]
  const SearchPrefix: string := "buscar "
  const FarewellWords: seq<string> := ["adiós", "hasta luego", "bye"]
  const HelpWords: seq<string> := ["ayuda", "qué puedes hacer"]

  /** The tests of the chain, and the branch each one leads to; passing none leads to AskAI. */
  const Table: seq<Test> := [
    Prefix(ConfigurePrefix), AnyOf(GreetingWords), AnyOf(TimeWords), AnyOf(DateWords),
    AnyOf(BrowserWords), Prefix(SearchPrefix), AnyOf(FarewellWords), AnyOf(HelpWords)]
  const Branches: seq<Branch> := [Configure, Greeting, Time, Date, Browser, Search, Farewell, Help]

  function BranchAt(i: nat): Branch {
    if i < |Branches| then Branches[i] else AskAI
  }

  /** The if/elif chain of `procesar_comando`, on the normalised utterance `c`. */
  function Route(c: string): Branch {
    if StartsWith(c, ConfigurePrefix) then Configure
    else if AnyIn(c, GreetingWords) then Greeting
    else if AnyIn(c, TimeWords) then Time
    else if AnyIn(c, DateWords) then Date
    else if AnyIn(c, BrowserWords) then Browser
    else if StartsWith(c, SearchPrefix) then Search
    else if AnyIn(c, FarewellWords) then Farewell
    else if AnyIn(c, HelpWords) then Help
    else AskAI
  }

  /** `comando = comando.lower().strip()`, then the chain. */
  function Classify(comando: string): Branch {
    Route(Normalize(comando))
  }

  /** The chain is the first-match-wins reading of the rule table. */
  lemma RouteFollowsTable(c: string)
    ensures Route(c) == BranchAt(FirstPassing(Table, c))
  {
    var k: nat :=
      if StartsWith(c, ConfigurePrefix) then 0
      else if AnyIn(c, GreetingWords) then 1
      else if AnyIn(c, TimeWords) then 2
      else if AnyIn(c, DateWords) then 3
      else if AnyIn(c, BrowserWords) then 4
      else if StartsWith(c, SearchPrefix) then 5
      else if AnyIn(c, FarewellWords) then 6
      else if AnyIn(c, HelpWords) then 7
      else 8;
    assert k < |Table| ==> Passes(Table[k], c);
    assert forall i | 0 <= i < k :: !Passes(Table[i], c);
    FirstPassingUnique(Table, c, k);
  }

  /** An utterance's branch is that of the first rule its normal form passes. */
  lemma ClassifyFollowsTable(comando: string)
    ensures Classify(comando) == BranchAt(FirstPassing(Table, Normalize(comando)))
  {
    RouteFollowsTable(Normalize(comando));
  }

  /** Case and surrounding whitespace never change the branch. */
  lemma ClassifyIgnoresCase(comando: string)
    ensures Classify(Normalize(comando)) == Classify(comando)
  {
    NormalizeIdempotent(comando);
  }

  /** What a branch says, and the page it opens if any. */
  datatype Response = Response(text: string, page: Option<string>)

  /** A local reply, or the utterance to hand to the connector. */
  datatype Action = Say(response: Response) | Delegate(utterance: string)

  const UsageHint: string := "💡 Uso: 'configurar [openai|gemini|huggingface]'"
  const GreetingReply: string :=
    "¡Hola! Soy tu asistente con IA integrada. Puedo responder cualquier pregunta. ¿En qué puedo ayudarte?"
  const FarewellReplies: seq<string> := [
    "¡Hasta luego! Ha sido un placer conversar contigo.",
    "¡Adiós! Vuelve cuando necesites ayuda.",
    "¡Nos vemos! Que tengas un excelente día."]
  const HelpText: string :=
    "🤖 Soy un asistente con IA avanzada. Puedo:\n\n📋 **Comandos básicos:**\n• Decir la hora y fecha\n• Abrir navegador web\n• Realizar búsquedas\n\n🧠 **IA Conversacional:**\n• Responder cualquier pregunta\n• Mantener conversaciones naturales\n• Ayudar con tareas complejas\n• Aprender del contexto de nuestra conversación\n\n⚙\U{FE0F} **Configuración:**\n• 'configurar openai/gemini' - Para usar IA premium\n• Sin configuración uso IA gratuita\n\n¡Pregúntame lo que quieras!"

  /** `%A` and `%B` in the C locale. */
  const DayNames: seq<string> := ["Monday", "Tuesday", "Wednesday", "Thursday", "Friday", "Saturday", "Sunday"]
  const MonthNames: seq<string> := [
    "January", "February", "March", "April", "May", "June",
    "July", "August", "September", "October", "November", "December"]

  /** The advice given for configuring `service`. */
  function ConfigureAdvice(service: string): string {
    "🔑 Para configurar " + service + ", necesito que proporciones la API key a través del botón 'Configurar IA'"
  }

  /** The reply to `configurar ...`: it names the second word, or shows the usage. */
  function ConfigureReply(c: string): (r: string)
    ensures |Words(c)| < 2 ==> r == UsageHint
    ensures |Words(c)| >= 2 ==> r == ConfigureAdvice(Words(c)[1])
  {
    var parts := Words(c);
    if |parts| >= 2 then ConfigureAdvice(parts[1]) else UsageHint
  }

  /** "configurar", whitespace, then a service name: the advice names that service, whatever follows it. */
  lemma ConfigureNamesService(sep: char, service: string, rest: string)
    requires IsSpace(sep) && IsWord(service) && (rest == [] || IsSpace(rest[0]))
    ensures ConfigureReply(ConfigurePrefix + [sep] + service + rest) == ConfigureAdvice(service)
  {
    assert ConfigurePrefix + [sep] + service + rest == ConfigurePrefix + ([sep] + (service + rest));
    WordsTwoWords(ConfigurePrefix, sep, service, rest);
  }

  /** "configurar" with only whitespace after it gets the usage hint. */
  lemma ConfigureAloneShowsUsage(rest: string)
    requires AllSpace(rest)
    ensures ConfigureReply(ConfigurePrefix + rest) == UsageHint
  {
    WordsAppendWord(ConfigurePrefix, rest);
    WordsEmptyIff(rest);
  }

  /** `comando.replace("buscar ", "")` */
  function SearchTerm(c: string): string {
    RemoveAll(c, SearchPrefix)
  }

  /**
   * `strftime('%A, %d de %B de %Y')`: the weekday's name, ", ", the day in
   * two digits, " de ", the month's name, " de " and the year.
   */
  function EnglishDate(now: DateTime): (r: string)
    ensures var d := DayNames[now.weekday];
      && |r| >= |d| + 4 && r[..|d|] == d && r[|d|..|d| + 2] == ", "
      && AllDigits(r[|d| + 2..|d| + 4]) && ParseDecimal(r[|d| + 2..|d| + 4]) == now.day
    ensures var y := " de " + NatToString(now.year);
      |r| >= |y| && r[|r| - |y|..] == y
    ensures r == DayNames[now.weekday] + ", " + TwoDigits(now.day) + " de " + MonthNames[now.month - 1]
      + " de " + NatToString(now.year)
  {
    var d := DayNames[now.weekday];
    var dd := TwoDigits(now.day);
    var head := d + ", " + dd;
    var y := " de " + NatToString(now.year);
    var r := head + " de " + MonthNames[now.month - 1] + y;
    assert r[..|head|] == head;
    assert r[|d| + 2..|d| + 4] == head[|d| + 2..|d| + 4] == dd;
    r
  }

  /** What `procesar_comando` does with `comando`, the AI branch apart. */
  function Dispatch(comando: string, now: DateTime, pick: nat): (a: Action)
    ensures a.Delegate? <==> Classify(comando) == AskAI
    ensures a.Delegate? ==> a.utterance == comando
    ensures a.Say? ==> (a.response.page.Some? <==> Classify(comando) in {Browser, Search})
    ensures Classify(comando) == Farewell ==> a.response.text in FarewellReplies
    ensures Classify(comando) == Search ==>
      && a.response.page == Some(SearchUrl(SearchTerm(Normalize(comando))))
      && a.response.text == "🔍 Buscando: " + SearchTerm(Normalize(comando))
  {
    var c := Normalize(comando);
    match Classify(comando)
    case Configure => Say(Response(ConfigureReply(c), None))
    case Greeting => Say(Response(GreetingReply, None))
    case Time => Say(Response("🕐 Son las " + HourMinute(now), None))
    case Date => Say(Response("📅 Hoy es " + EnglishDate(now), None))
    case Browser => Say(Response("🌐 Abriendo el navegador web", Some(HomePage)))
    case Search =>
      var term := SearchTerm(c);
      Say(Response("🔍 Buscando: " + term, Some(SearchUrl(term))))
    case Farewell => Say(Response(Choose(FarewellReplies, pick), None))
    case Help => Say(Response(HelpText, None))
    case AskAI => Delegate(comando)
  }

  /** The replies of the local branches other than search and farewell. */
  lemma DispatchLocalReplies(comando: string, now: DateTime, pick: nat)
    ensures Classify(comando) == Configure ==>
      Dispatch(comando, now, pick) == Say(Response(ConfigureReply(Normalize(comando)), None))
    ensures Classify(comando) == Greeting ==> Dispatch(comando, now, pick) == Say(Response(GreetingReply, None))
    ensures Classify(comando) == Time ==>
      Dispatch(comando, now, pick) == Say(Response("🕐 Son las " + HourMinute(now), None))
    ensures Classify(comando) == Date ==>
      Dispatch(comando, now, pick) == Say(Response("📅 Hoy es " + EnglishDate(now), None))
    ensures Classify(comando) == Browser ==>
      Dispatch(comando, now, pick) == Say(Response("🌐 Abriendo el navegador web", Some(HomePage)))
    ensures Classify(comando) == Help ==> Dispatch(comando, now, pick) == Say(Response(HelpText, None))
  {
  }

  /**
   * For a stripped utterance that starts with "buscar ": the term is never
   * empty and ends where the utterance ends; when what follows the prefix
   * holds no further "buscar ", the term is exactly that; and the URL
   * carries no space.
   */
  lemma SearchTermOf(c: string)
    requires StartsWith(c, SearchPrefix) && !IsSpace(c[|c| - 1])
    ensures var t := SearchTerm(c);
      && t != [] && t[|t| - 1] == c[|c| - 1]
      && (!Contains(c[|SearchPrefix|..], SearchPrefix) ==> t == c[|SearchPrefix|..])
      && ' ' !in SearchUrl(t)
  {
    var rest := c[|SearchPrefix|..];
    assert c == SearchPrefix + rest;
    RemoveAllKeepsLast(c, SearchPrefix);
    if !Contains(rest, SearchPrefix) {
      RemoveAllLeading(SearchPrefix, rest);
      RemoveAllAbsent(rest, SearchPrefix);
    }
  }

  /** The search branch is reached only by utterances that start with "buscar ". */
  lemma SearchNeedsPrefix(c: string)
    requires Route(c) == Search
    ensures StartsWith(c, SearchPrefix)
  {
  }

  /** SearchTermOf, read on a normalised utterance. */
  lemma NormalizedSearchTerm(comando: string)
    requires StartsWith(Normalize(comando), SearchPrefix)
    ensures var c := Normalize(comando);
      var t := SearchTerm(c);
      && t != [] && t[|t| - 1] == c[|c| - 1]
      && (!Contains(c[|SearchPrefix|..], SearchPrefix) ==> t == c[|SearchPrefix|..])
      && ' ' !in SearchUrl(t)
  {
    SearchTermOf(Normalize(comando));
  }

  /** Every utterance routed to the search branch meets SearchTermOf's conditions. */
  lemma SearchTermShape(comando: string)
    requires Classify(comando) == Search
    ensures StartsWith(Normalize(comando), SearchPrefix)
    ensures var c := Normalize(comando);
      var t := SearchTerm(c);
      && t != [] && t[|t| - 1] == c[|c| - 1]
      && (!Contains(c[|SearchPrefix|..], SearchPrefix) ==> t == c[|SearchPrefix|..])
      && ' ' !in SearchUrl(t)
  {
    SearchNeedsPrefix(Normalize(comando));
    NormalizedSearchTerm(comando);
  }

  /** A greeting is tested before the time: "hola, dime la hora" is greeted. */
  lemma GreetingBeforeTime()
    ensures Route("hola, dime la hora") == Greeting
  {
    var c := "hola, dime la hora";
    assert c[..|ConfigurePrefix|] != ConfigurePrefix by {
      assert c[..|ConfigurePrefix|][0] != ConfigurePrefix[0];
    }
    assert c[..|GreetingWords[0]|] == GreetingWords[0];
    assert Contains(c, GreetingWords[0]);
  }

  const BuscarGatos: string := "buscar gatos"

  // One fact about "buscar gatos" per lemma, so that each proof weighs one word list.

  lemma BuscarGatosNotConfigure()
    ensures !StartsWith(BuscarGatos, ConfigurePrefix)
  {
    assert BuscarGatos[..|ConfigurePrefix|][2] != ConfigurePrefix[2];
  }

  lemma BuscarGatosNoGreeting()
    ensures !AnyIn(BuscarGatos, GreetingWords)
  {
    NoWordByChar(BuscarGatos, GreetingWords, [0, 2, 2, 0]);
  }

  lemma BuscarGatosNoTime()
    ensures !AnyIn(BuscarGatos, TimeWords)
  {
    NoWordByChar(BuscarGatos, TimeWords, [0, 0]);
  }

  lemma BuscarGatosNoDate()
    ensures !AnyIn(BuscarGatos, DateWords)
  {
    NoWordByChar(BuscarGatos, DateWords, [0, 0]);
  }

  lemma BuscarGatosNoBrowser()
    ensures !AnyIn(BuscarGatos, BrowserWords)
  {
    NoWordByChar(BuscarGatos, BrowserWords, [3, 3]);
  }

  /** "buscar gatos" reaches the search branch: no earlier test passes. */
  lemma SearchRouteExample()
    ensures Route(BuscarGatos) == Search
  {
    BuscarGatosNotConfigure();
    BuscarGatosNoGreeting();
    BuscarGatosNoTime();
    BuscarGatosNoDate();
    BuscarGatosNoBrowser();
    assert StartsWith(BuscarGatos, SearchPrefix);
  }

  /** The term of "buscar gatos" is "gatos", and so is the query. */
  lemma SearchTermExample()
    ensures SearchTerm(BuscarGatos) == "gatos"
    ensures SearchUrl(SearchTerm(BuscarGatos)) == "https://www.google.com/search?q=gatos"
  {
    assert BuscarGatos == SearchPrefix + "gatos";
    RemoveAllLeading(SearchPrefix, "gatos");
    NotContainsByChar("gatos", SearchPrefix, 1);
    RemoveAllAbsent("gatos", SearchPrefix);
    assert ReplaceChar("gatos", ' ', '+') == "gatos";
  }

  /** `AsistenteVirtualIA`: a named assistant with its own connector. */
  class AssistantAI {
    const name: string
    const connector: Connector

    /** `__init__`; the voice engines are not part of this model. */
    constructor (name: string, document: Option<ApiKeys>)
      ensures this.name == name && fresh(connector)
      ensures connector.Valid() && connector.history == [] && connector.apiKeys == LoadApiKeys(document)
    {
      this.name := name;
      connector := new Connector(document);
    }

    /**
     * `procesar_comando`: a local branch answers without touching the
     * history; the AI branch sends the utterance as typed to the automatic
     * provider choice, which records the turn only when it succeeds.
     */
    method ProcessCommand(comando: string, now: DateTime, pick: nat, endpoints: Endpoints, timestamp: string)
      returns (r: Response)
      requires connector.Valid()
      modifies connector`history
      ensures connector.Valid()
      ensures Dispatch(comando, now, pick).Say? ==>
        r == Dispatch(comando, now, pick).response && connector.history == old(connector.history)
      ensures Dispatch(comando, now, pick).Delegate? ==>
        var o := Answer(connector.apiKeys, old(connector.history), comando, "auto", endpoints);
        r == Response(o.Text(), None) && connector.history == Commit(old(connector.history), comando, timestamp, o)
    {
      match Dispatch(comando, now, pick) {
        case Say(response) =>
          r := response;
        case Delegate(utterance) =>
          var text := connector.Ask(utterance, "auto", endpoints, timestamp);
          r := Response(text, None);
      }
    }
  }
}

=== FILE: assistant.dfy ===
/**
 * `AsistenteVirtual.procesar_comando` of asistente_reparado.py: eleven
 * keyword rules tried in order on the lower-cased, stripped utterance,
 * the first passing rule deciding, and a default reply when none passes.
 *
 * The clock and `random.choice` are parameters; so is the exception
 * `webbrowser.open` raises, if any.  A reply records the page that was
 * opened.
 */
module Assistant {
  import opened Optional
  import opened Text
  import opened Rules
  import opened Clock
  import opened SearchTerms

  /** The branches of `procesar_comando`, in the order they are tried. */
  datatype Branch =
    Greeting | Time | Date | Browser | Search | YouTube | Climate | Farewell | Thanks | Status | Help | Default

  const GreetingWords: seq<string> := ["hola", "buenos días", "buenas tardes", "buenas noches", "hey"]
  const TimeWords: seq<string> := ["hora", "tiempo", "qué hora"]
  const DateWords: seq<string> := ["fecha", "día", "qué día", "calendario"]
  const BrowserWords: seq<string> := ["abre navegador", "abrir navegador", "internet", "web"]
  const YouTubeWords: seq<string> := ["youtube"]
  const ClimateWords: seq<string> := ["clima", "tiempo", "temperatura"]
  const FarewellWords: seq<string> := ["adiós", "hasta luego", "bye", "chao", "nos vemos"]
  const ThanksWords: seq<string> := ["gracias", "grazie", "thanks"]
  const StatusWords: seq<string> := ["cómo estás", "como estas", "qué tal"]
  const HelpWords: seq<string> := ["ayuda", "help", "qué puedes hacer", "comandos"]

  /** The rules, in order, and the branch each leads to; passing none leads to Default. */
  const Table: seq<Test> := OpeningRules + ClosingRules
  const OpeningRules: seq<Test> := [
    AnyOf(GreetingWords), AnyOf(TimeWords), AnyOf(DateWords), AnyOf(BrowserWords), AnyOf(SearchWords),
    AnyOf(YouTubeWords)]
  const ClosingRules: seq<Test> := [
    AnyOf(ClimateWords), AnyOf(FarewellWords), AnyOf(ThanksWords), AnyOf(StatusWords), AnyOf(HelpWords)]
  const Branches: seq<Branch> :=
    [Greeting, Time, Date, Browser, Search, YouTube, Climate, Farewell, Thanks, Status, Help]

  function BranchAt(i: nat): Branch {
    if i < |Branches| then Branches[i] else Default
  }

  /** The if/elif chain of `procesar_comando`, on the normalised utterance `c`. */
  function Route(c: string): Branch {
    if AnyIn(c, GreetingWords) then Greeting
    else if AnyIn(c, TimeWords) then Time
    else if AnyIn(c, DateWords) then Date
    else if AnyIn(c, BrowserWords) then Browser
    else if AnyIn(c, SearchWords) then Search
    else if AnyIn(c, YouTubeWords) then YouTube
    else if AnyIn(c, ClimateWords) then Climate
    else if AnyIn(c, FarewellWords) then Farewell
    else if AnyIn(c, ThanksWords) then Thanks
    else if AnyIn(c, StatusWords) then Status
    else if AnyIn(c, HelpWords) then Help
    else Default
  }

  /** `comando = comando.lower().strip()`, then the chain. */
  function Classify(comando: string): Branch {
    Route(Normalize(comando))
  }

  /** The first six rules, read on their own. */
  lemma OpeningRulesFirst(c: string)
    ensures FirstPassing(OpeningRules, c) ==
      if AnyIn(c, GreetingWords) then 0
      else if AnyIn(c, TimeWords) then 1
      else if AnyIn(c, DateWords) then 2
      else if AnyIn(c, BrowserWords) then 3
      else if AnyIn(c, SearchWords) then 4
      else if AnyIn(c, YouTubeWords) then 5
      else 6
  {
    var k: nat :=
      if AnyIn(c, GreetingWords) then 0
      else if AnyIn(c, TimeWords) then 1
      else if AnyIn(c, DateWords) then 2
      else if AnyIn(c, BrowserWords) then 3
      else if AnyIn(c, SearchWords) then 4
      else if AnyIn(c, YouTubeWords) then 5
      else 6;
    assert k < |OpeningRules| ==> Passes(OpeningRules[k], c);
    assert forall i | 0 <= i < k :: !Passes(OpeningRules[i], c);
    FirstPassingUnique(OpeningRules, c, k);
  }

  /** The last five rules, read on their own. */
  lemma ClosingRulesFirst(c: string)
    ensures FirstPassing(ClosingRules, c) ==
      if AnyIn(c, ClimateWords) then 0
      else if AnyIn(c, FarewellWords) then 1
      else if AnyIn(c, ThanksWords) then 2
      else if AnyIn(c, StatusWords) then 3
      else if AnyIn(c, HelpWords) then 4
      else 5
  {
    var k: nat :=
      if AnyIn(c, ClimateWords) then 0
      else if AnyIn(c, FarewellWords) then 1
      else if AnyIn(c, ThanksWords) then 2
      else if AnyIn(c, StatusWords) then 3
      else if AnyIn(c, HelpWords) then 4
      else 5;
    assert k < |ClosingRules| ==> Passes(ClosingRules[k], c);
    assert forall i | 0 <= i < k :: !Passes(ClosingRules[i], c);
    FirstPassingUnique(ClosingRules, c, k);
  }

  /** The chain is the first-match-wins reading of the rule table. */
  lemma RouteFollowsTable(c: string)
    ensures Route(c) == BranchAt(FirstPassing(Table, c))
  {
    OpeningRulesFirst(c);
    ClosingRulesFirst(c);
    FirstPassingAppend(OpeningRules, ClosingRules, c);
    var h := FirstPassing(OpeningRules, c);
    if h < |OpeningRules| {
      assert Branches[h] == [Greeting, Time, Date, Browser, Search, YouTube][h];
    } else {
      var t := FirstPassing(ClosingRules, c);
      assert t < |ClosingRules| ==> Branches[h + t] == [Climate, Farewell, Thanks, Status, Help][t];
    }
  }

  /** An utterance's branch is that of the first rule its normal form passes. */
  lemma ClassifyFollowsTable(comando: string)
    ensures Classify(comando) == BranchAt(FirstPassing(Table, Normalize(comando)))
  {
    RouteFollowsTable(Normalize(comando));
  }

  /** Case and surrounding whitespace never change the branch. */
  lemma ClassifyIgnoresCase(comando: string)
    ensures Classify(Normalize(comando)) == Classify(comando)
  {
    NormalizeIdempotent(comando);
  }

  /** "tiempo" is a time word, so without a greeting word it always asks for the time. */
  lemma TiempoAsksTime(c: string)
    requires Contains(c, "tiempo") && !AnyIn(c, GreetingWords)
    ensures Route(c) == Time
  {
    assert Contains(c, TimeWords[1]);
  }

  /** The climate branch is reached only through "clima" or "temperatura", never "tiempo". */
  lemma ClimateOnlyByName(c: string)
    requires Route(c) == Climate
    ensures Contains(c, "clima") || Contains(c, "temperatura")
    ensures !Contains(c, "tiempo")
  {
    assert !Contains(c, TimeWords[1]);
    assert AnyIn(c, ClimateWords);
    var i :| 0 <= i < |ClimateWords| && Contains(c, ClimateWords[i]);
    assert i != 1;
  }

  // ---------------------------------------------------------------- replies

  /** What a branch says, and the page it opened if any. */
  datatype Reply = Reply(text: string, page: Option<string>)

  const GreetingReplies: seq<string> := [
    "¡Hola! ¿En qué puedo ayudarte hoy?",
    "¡Saludos! Estoy aquí para asistirte.",
    "¡Hola! ¿Qué necesitas que haga por ti?",
    "¡Buenos días! ¿Cómo puedo ser útil?"]
  const FarewellReplies: seq<string> := [
    "¡Hasta luego! Que tengas un excelente día.",
    "¡Adiós! Estaré aquí cuando me necesites.",
    "¡Nos vemos! Cuídate mucho.",
    "¡Hasta la próxima! Que todo te vaya bien."]
  const ThanksReplies: seq<string> := [
    "¡De nada! Estoy aquí para ayudarte.",
    "¡Un placer ayudarte!",
    "¡Para eso estoy! ¿Necesitas algo más?",
    "¡Siempre a tu servicio!"]
  const StatusReplies: seq<string> := [
    "¡Estoy funcionando perfectamente! ¿Y tú qué tal?",
    "¡Muy bien, gracias por preguntar! ¿Cómo puedo ayudarte?",
    "¡Excelente! Listo para cualquier tarea.",
    "¡De maravilla! ¿En qué puedo ser útil?"]
  const DefaultReplies: seq<string> := [
    "🤔 No estoy seguro de cómo ayudarte con eso. ¿Puedes ser más específico?",
    "❓ No entendí completamente. Puedes pedirme la hora, abrir el navegador, o buscar algo.",
    "🤷 Disculpa, no reconozco ese comando. Escribe 'ayuda' para ver qué puedo hacer.",
    "💭 Hmm, no sé cómo responder a eso. ¿Podrías reformular tu pregunta?"]
  const HelpText: string :=
    "🤖 Puedo ayudarte con:\n• Decirte la hora y fecha\n• Abrir el navegador web\n• Buscar información en Google\n• Abrir YouTube\n• Mostrar información del clima\n• Mantener conversaciones básicas\n            \n¡Solo pregúntame lo que necesites!"
  const NoSearchTerm: string := "❓ ¿Qué quieres que busque?"
  const YouTubePage: string := "https://www.youtube.com"
  const WeatherPage: string := "https://weather.com"

  const SpanishDays: seq<string> := ["lunes", "martes", "miércoles", "jueves", "viernes", "sábado", "domingo"]
  const SpanishMonths: seq<string> := [
    "enero", "febrero", "marzo", "abril", "mayo", "junio",
    "julio", "agosto", "septiembre", "octubre", "noviembre", "diciembre"]

  /** The date reply's text after "Hoy es ": the clock's weekday and month named from the lists, then its day and year. */
  function SpanishDate(now: DateTime): (r: string)
    ensures exists day, year | ReadsAs(day, now.day) && ReadsAs(year, now.year) ::
      r == SpanishDays[now.weekday] + ", " + day + " de " + SpanishMonths[now.month - 1] + " de " + year
    ensures r == SpanishDays[now.weekday] + ", " + NatToString(now.day) + " de " + SpanishMonths[now.month - 1]
      + " de " + NatToString(now.year)
  {
    var d, m := SpanishDays[now.weekday], SpanishMonths[now.month - 1];
    var day, year := NatToString(now.day), NatToString(now.year);
    NatToStringRoundTrip(now.day);
    NatToStringRoundTrip(now.year);
    assert ReadsAs(day, now.day) && ReadsAs(year, now.year);
    d + ", " + day + " de " + m + " de " + year
  }

  /** A command that opens `page`: the reply on success, or the error reply with the exception's text. */
  function Open(page: string, success: string, errorPrefix: string, failure: Option<string>): (r: Reply)
    ensures failure.None? ==> r == Reply(success, Some(page))
    ensures failure.Some? ==> r == Reply(errorPrefix + failure.value, None)
  {
    match failure
    case None => Reply(success, Some(page))
    case Some(e) => Reply(errorPrefix + e, None)
  }

  // ------------------------------------------------------------ the command

  /** `procesar_comando` with the search branch working as intended. */
  function Respond(comando: string, now: DateTime, pick: nat, failure: Option<string>): (r: Reply)
    ensures Classify(comando) == Greeting ==> r.text in GreetingReplies
    ensures Classify(comando) == Farewell ==> r.text in FarewellReplies
    ensures Classify(comando) == Thanks ==> r.text in ThanksReplies
    ensures Classify(comando) == Status ==> r.text in StatusReplies
    ensures Classify(comando) == Default ==> r.text in DefaultReplies
    ensures r.page.Some? ==> failure.None? && Classify(comando) in {Browser, Search, YouTube, Climate}
    ensures Classify(comando) == Search ==>
      var t := SearchTerm(Normalize(comando));
      && (t == [] ==> r == Reply(NoSearchTerm, None))
      && (t != [] && failure.None? ==> r.page == Some(SearchUrl(t)) && ' ' !in r.page.value)
  {
    var c := Normalize(comando);
    match Route(c)
    case Greeting => Reply(Choose(GreetingReplies, pick), None)
    case Time => Reply("🕐 Son las " + HourMinute(now), None)
    case Date => Reply("📅 Hoy es " + SpanishDate(now), None)
    case Browser => Open(HomePage, "🌐 Abriendo el navegador web", "❌ Error abriendo navegador: ", failure)
    case Search =>
      var t := SearchTerm(c);
      if t == [] then Reply(NoSearchTerm, None)
      else Open(SearchUrl(t), "🔍 Buscando información sobre: " + t, "❌ Error realizando búsqueda: ", failure)
    case YouTube => Open(YouTubePage, "📺 Abriendo YouTube", "❌ Error abriendo YouTube: ", failure)
    case Climate =>
      Open(WeatherPage, "🌤\U{FE0F} Abriendo información del clima", "❌ Error abriendo clima: ", failure)
    case Farewell => Reply(Choose(FarewellReplies, pick), None)
    case Thanks => Reply(Choose(ThanksReplies, pick), None)
    case Status => Reply(Choose(StatusReplies, pick), None)
    case Help => Reply(HelpText, None)
    case Default => Reply(Choose(DefaultReplies, pick), None)
  }

  /** The replies that take no list and open no page: the time, the date and the help text. */
  lemma RespondLocalReplies(comando: string, now: DateTime, pick: nat, failure: Option<string>)
    ensures Classify(comando) == Time ==>
      Respond(comando, now, pick, failure) == Reply("🕐 Son las " + HourMinute(now), None)
    ensures Classify(comando) == Date ==>
      Respond(comando, now, pick, failure) == Reply("📅 Hoy es " + SpanishDate(now), None)
    ensures Classify(comando) == Help ==> Respond(comando, now, pick, failure) == Reply(HelpText, None)
  {
  }

  /** When the browser opens, each opening branch reports its page with its success text. */
  lemma RespondOpensPages(comando: string, now: DateTime, pick: nat)
    ensures Classify(comando) == Browser ==>
      Respond(comando, now, pick, None) == Reply("🌐 Abriendo el navegador web", Some(HomePage))
    ensures Classify(comando) == YouTube ==>
      Respond(comando, now, pick, None) == Reply("📺 Abriendo YouTube", Some(YouTubePage))
    ensures Classify(comando) == Climate ==>
      Respond(comando, now, pick, None) == Reply("🌤\U{FE0F} Abriendo información del clima", Some(WeatherPage))
    ensures Classify(comando) == Search && SearchTerm(Normalize(comando)) != [] ==>
      var t := SearchTerm(Normalize(comando));
      Respond(comando, now, pick, None) == Reply("🔍 Buscando información sobre: " + t, Some(SearchUrl(t)))
  {
  }

  /** When the browser raises `e`, each opening branch reports its error prefix and `str(e)`, and no page. */
  lemma RespondReportsFailure(comando: string, now: DateTime, pick: nat, e: string)
    ensures Classify(comando) == Browser ==>
      Respond(comando, now, pick, Some(e)) == Reply("❌ Error abriendo navegador: " + e, None)
    ensures Classify(comando) == YouTube ==>
      Respond(comando, now, pick, Some(e)) == Reply("❌ Error abriendo YouTube: " + e, None)
    ensures Classify(comando) == Climate ==>
      Respond(comando, now, pick, Some(e)) == Reply("❌ Error abriendo clima: " + e, None)
    ensures Classify(comando) == Search && SearchTerm(Normalize(comando)) != [] ==>
      Respond(comando, now, pick, Some(e)) == Reply("❌ Error realizando búsqueda: " + e, None)
  {
  }

  /** What a call of `procesar_comando` ends in: a reply, or an exception that escapes it. */
  datatype Result = Answered(reply: Reply) | Raised(error: string)

  const UndefinedName: string := "NameError: name 'termino_busquida' is not defined"

  /**
   * `procesar_comando` as written: the search loop reads the misspelt
   * `termino_busquida`, so the search branch raises before any reply.
   */
  function RespondAsWritten(comando: string, now: DateTime, pick: nat, failure: Option<string>): (r: Result)
    ensures Classify(comando) == Search <==> r.Raised?
    ensures r.Answered? ==> r.reply == Respond(comando, now, pick, failure)
  {
    if Classify(comando) == Search then Raised(UndefinedName)
    else Answered(Respond(comando, now, pick, failure))
  }

  /** "busca gatos", a plain request to search, raises instead of searching. */
  lemma AsWrittenSearchRaises(now: DateTime, pick: nat)
    ensures RespondAsWritten(BuscaGatos, now, pick, None) == Raised(UndefinedName)
  {
    BuscaGatosSearches();
  }

  const BuscaGatos: string := "busca gatos"

  // One fact about "busca gatos" per lemma, so that each proof weighs one word list.

  lemma BuscaGatosNormal()
    ensures Normalize(BuscaGatos) == BuscaGatos
  {
    LowerIdentity(BuscaGatos);
    StripOfStripped(BuscaGatos);
  }

  lemma BuscaGatosNoGreeting()
    ensures !AnyIn(BuscaGatos, GreetingWords)
  {
    NoWordByChar(BuscaGatos, GreetingWords, [0, 2, 2, 2, 0]);
  }

  lemma BuscaGatosNoTime()
    ensures !AnyIn(BuscaGatos, TimeWords)
  {
    NoWordByChar(BuscaGatos, TimeWords, [0, 1, 0]);
  }

  lemma BuscaGatosNoDate()
    ensures !AnyIn(BuscaGatos, DateWords)
  {
    NoWordByChar(BuscaGatos, DateWords, [0, 0, 0, 2]);
  }

  lemma BuscaGatosNoBrowser()
    ensures !AnyIn(BuscaGatos, BrowserWords)
  {
    NoWordByChar(BuscaGatos, BrowserWords, [2, 2, 0, 0]);
  }

  lemma BuscaGatosHasBusca()
    ensures AnyIn(BuscaGatos, SearchWords)
  {
    assert BuscaGatos[..5] == SearchWords[0];
    assert Contains(BuscaGatos, SearchWords[0]);
  }

  /** "busca gatos" passes no rule before the search rule. */
  lemma BuscaGatosSearches()
    ensures Classify(BuscaGatos) == Search
  {
    BuscaGatosNormal();
    BuscaGatosNoGreeting();
    BuscaGatosNoTime();
    BuscaGatosNoDate();
    BuscaGatosNoBrowser();
    BuscaGatosHasBusca();
  }

  /** `procesar_comando`, corrected: the search loop reads its own variable and deletes "buscar" first. */
  method ProcessCommand(comando: string, now: DateTime, pick: nat, failure: Option<string>) returns (r: Reply)
    ensures r == Respond(comando, now, pick, failure)
  {
    var c := Normalize(comando);
    if Route(c) == Search {
      var t := ExtractSearchTerm(c, LongestFirst);
      if t == [] {
        r := Reply(NoSearchTerm, None);
      } else {
        r := Open(SearchUrl(t), "🔍 Buscando información sobre: " + t, "❌ Error realizando búsqueda: ", failure);
      }
    } else {
      r := Respond(comando, now, pick, failure);
    }
  }
}

=== FILE: connector.dfy ===
/**
 * `ConectorIA` of asistente_con_ia.py: the credential mapping, the
 * conversation history shared by the three providers and bounded to
 * MaxHistory turns, the request each provider is sent, the way each
 * provider's answer or failure becomes the text returned, and the router
 * that picks the provider.
 *
 * An HTTP call is a function from the request to what came back
 * (`Call`): a status with a body and a decoded payload, a timeout, or
 * another exception.  The history is written only on a successful parse.
 */
module AiConnector {
  import opened Optional
  import opened Text

  /** `api_keys`: service name to that service's fields; only `"key"` is read. */
  type ApiKeys = map<string, map<string, string>>

  /** One entry of `historial_conversacion`. */
  datatype Turn = Turn(timestamp: string, prompt: string, response: string)

  /** `max_historial` */
  const MaxHistory: nat := 10
  /** Turns of history sent to OpenAI and to Gemini. */
  const ChatWindow: nat := 5
  const GeminiWindow: nat := 3
  /** The `timeout=` of every request, in seconds. */
  const TimeoutSeconds: nat := 30

  function Min(a: int, b: int): int {
    if a <= b then a else b
  }

  /** Python's `xs[-n:]` for a positive `n`. */
  function Last<T>(xs: seq<T>, n: nat): seq<T>
    requires n > 0
  {
    if |xs| <= n then xs else xs[|xs| - n..]
  }

  /** `xs[-n:]` is the suffix of the newest min(n, |xs|) elements, in order. */
  lemma LastIsNewest<T>(xs: seq<T>, n: nat)
    requires n > 0
    ensures |Last(xs, n)| == Min(n, |xs|)
    ensures Last(xs, n) == xs[|xs| - Min(n, |xs|)..]
    ensures forall i | 0 <= i < |Last(xs, n)| :: Last(xs, n)[i] == xs[|xs| - Min(n, |xs|) + i]
  {
  }

  /** A suffix that is at least as long as the window has the same window. */
  lemma LastOfSuffix<T>(zs: seq<T>, k: nat, n: nat)
    requires n > 0 && k <= |zs| && |zs| - k >= Min(n, |zs|)
    ensures Last(zs[k..], n) == Last(zs, n)
  {
    if |zs| - k > n {
      assert zs[k..][|zs| - k - n..] == zs[|zs| - n..];
    }
  }

  /** Cutting to the window before appending changes nothing once the window is cut again. */
  lemma LastOfLast<T>(xs: seq<T>, ys: seq<T>, n: nat)
    requires n > 0
    ensures Last(Last(xs, n) + ys, n) == Last(xs + ys, n)
  {
    var a := Last(xs, n);
    LastIsNewest(xs, n);
    assert a + ys == (xs + ys)[|xs| - |a|..];
    LastOfSuffix(xs + ys, |xs| - |a|, n);
  }

  // ---------------------------------------------------------------- history

  /** `agregar_al_historial` on values: append, then keep the newest MaxHistory turns. */
  function Record(history: seq<Turn>, turn: Turn): (r: seq<Turn>)
    ensures 0 < |r| <= MaxHistory && r[|r| - 1] == turn
  {
    LastIsNewest(history + [turn], MaxHistory);
    Last(history + [turn], MaxHistory)
  }

  /** The bound, the newest turn last, and FIFO eviction of the oldest turns. */
  lemma RecordBoundedFifo(history: seq<Turn>, turn: Turn)
    ensures |Record(history, turn)| == Min(|history| + 1, MaxHistory)
    ensures Record(history, turn)[|Record(history, turn)| - 1] == turn
    ensures |history| < MaxHistory ==> Record(history, turn) == history + [turn]
    ensures |history| >= MaxHistory ==>
      Record(history, turn) == history[|history| - MaxHistory + 1..] + [turn]
  {
    LastIsNewest(history + [turn], MaxHistory);
    if |history| >= MaxHistory {
      assert (history + [turn])[|history| + 1 - MaxHistory..]
          == history[|history| - MaxHistory + 1..] + [turn];
    }
  }

  /** The history left after recording `turns`, one at a time, from an empty history. */
  function Ledger(turns: seq<Turn>): seq<Turn> {
    if turns == [] then [] else Record(Ledger(turns[..|turns| - 1]), turns[|turns| - 1])
  }

  /** After any run of successful turns the history is exactly the newest MaxHistory of them, oldest first. */
  lemma {:induction false} LedgerKeepsNewest(turns: seq<Turn>)
    ensures Ledger(turns) == Last(turns, MaxHistory)
    ensures |Ledger(turns)| == Min(|turns|, MaxHistory)
  {
    if turns != [] {
      var init := turns[..|turns| - 1];
      LedgerKeepsNewest(init);
      LastOfLast(init, [turns[|turns| - 1]], MaxHistory);
      assert init + [turns[|turns| - 1]] == turns;
    }
    LastIsNewest(turns, MaxHistory);
  }

  // ------------------------------------------------------------ credentials

  predicate HasKey(keys: ApiKeys, service: string) {
    service in keys && "key" in keys[service]
  }

  /** `cargar_api_keys`: the parsed config.json, or `{}` when it is missing or unreadable. */
  function LoadApiKeys(document: Option<ApiKeys>): (keys: ApiKeys)
    ensures document.None? ==> keys == map[]
    ensures document.Some? ==> keys == document.value
  {
    document.GetOr(map[])
  }

  /** `configurar_api_key` on values: merge one key into the mapping. */
  function WithKey(keys: ApiKeys, service: string, key: string): (r: ApiKeys)
    ensures r.Keys == keys.Keys + {service}
    ensures HasKey(r, service) && r[service]["key"] == key
    ensures r[service].Keys == (if service in keys then keys[service].Keys else {}) + {"key"}
    ensures forall f | service in keys && f in keys[service] && f != "key" :: r[service][f] == keys[service][f]
    ensures forall s | s in keys && s != service :: r[s] == keys[s]
  {
    var fields := if service in keys then keys[service] else map[];
    keys[service := fields["key" := key]]
  }

  // ------------------------------------------------------------- providers

  datatype Provider = OpenAI | Gemini | HuggingFace

  function ServiceName(p: Provider): string {
    match p
    case OpenAI => "openai"
    case Gemini => "gemini"
    case HuggingFace => "huggingface"
  }

  /** The providers `"auto"` tries in turn; Hugging Face, which needs no key, is the fallback. */
  const AutoPriority: seq<Provider> := [OpenAI, Gemini]

  /** The first provider of `order` with a configured key. */
  function FirstConfigured(order: seq<Provider>, keys: ApiKeys): (r: Option<Provider>)
    ensures r.Some? ==> r.value in order && HasKey(keys, ServiceName(r.value))
    ensures r.None? <==> forall i | 0 <= i < |order| :: !HasKey(keys, ServiceName(order[i]))
  {
    if order == [] then None
    else if HasKey(keys, ServiceName(order[0])) then Some(order[0])
    else FirstConfigured(order[1..], keys)
  }

  /** The choice at the head of `obtener_respuesta_ia`; None is an unrecognised service. */
  function SelectProvider(keys: ApiKeys, service: string): (r: Option<Provider>)
    ensures service == "auto" ==> r.Some?
    ensures service == "auto" ==> (r == Some(OpenAI) <==> HasKey(keys, "openai"))
    ensures service == "auto" ==>
      (r == Some(Gemini) <==> !HasKey(keys, "openai") && HasKey(keys, "gemini"))
    ensures service == "auto" ==>
      (r == Some(HuggingFace) <==> !HasKey(keys, "openai") && !HasKey(keys, "gemini"))
    ensures service != "auto" ==>
      (r.Some? <==> service in {"openai", "gemini", "huggingface"})
    ensures service != "auto" && r.Some? ==> ServiceName(r.value) == service
  {
    if service == "auto" then
      if HasKey(keys, "openai") then Some(OpenAI)
      else if HasKey(keys, "gemini") then Some(Gemini)
      else Some(HuggingFace)
    else if service == "openai" then Some(OpenAI)
    else if service == "gemini" then Some(Gemini)
    else if service == "huggingface" then Some(HuggingFace)
    else None
  }

  /** Automatic selection is the first configured provider in AutoPriority, else Hugging Face. */
  lemma AutoFollowsPriority(keys: ApiKeys)
    ensures SelectProvider(keys, "auto") == Some(FirstConfigured(AutoPriority, keys).GetOr(HuggingFace))
  {
    assert AutoPriority[1..] == [Gemini];
    assert AutoPriority[1..][1..] == [];
  }

  /** Setting an OpenAI key makes `"auto"` pick OpenAI whatever else is configured. */
  lemma ConfiguringOpenAIWins(keys: ApiKeys, key: string)
    ensures SelectProvider(WithKey(keys, "openai", key), "auto") == Some(OpenAI)
  {
  }

  // ------------------------------------------------------------- requests

  datatype Message = Message(role: string, content: string)

  /** The chat-completions body and its bearer token. */
  datatype ChatRequest = ChatRequest(
    bearer: string, model: string, messages: seq<Message>,
    maxTokens: nat, temperature: real, timeout: nat)

  /** The generateContent body; the key travels in the URL. */
  datatype GenerateRequest = GenerateRequest(
    urlKey: string, prompt: string, temperature: real, maxOutputTokens: nat, timeout: nat)

  /** The inference body; the bearer header is sent only when a key is configured. */
  datatype InferenceRequest = InferenceRequest(bearer: Option<string>, inputs: string, timeout: nat)

  /** What a `requests.post` led to. */
  datatype Call<P> =
    | Answered(status: nat, body: string, payload: P)
    | TimedOut
    | Raised(error: string)

  /** `result["choices"][0]["message"]["content"]`, or the exception reading it raised. */
  datatype ChatPayload = ChatContent(content: string) | ChatMalformed(error: string)

  /** No non-empty `"candidates"`, the first candidate's text, or the exception reading it raised. */
  datatype GeminiPayload = NoCandidates | CandidateText(text: string) | CandidateMalformed(error: string)

  /**
   * Not a non-empty list; `result[0].get("generated_text", "")` (so a
   * missing field reads as ""); or the exception decoding it raised.
   */
  datatype InferencePayload = NotAList | Generated(text: string) | InferenceMalformed(error: string)

  /** The three endpoints, each answering the request it is sent. */
  datatype Endpoints = Endpoints(
    openai: ChatRequest -> Call<ChatPayload>,
    gemini: GenerateRequest -> Call<GeminiPayload>,
    huggingface: InferenceRequest -> Call<InferencePayload>)

  /** The normalised result of one provider call. */
  datatype Outcome = Replied(text: string) | Failed(message: string) {
    /** The string `obtener_respuesta_*` returns. */
    function Text(): string {
      if Replied? then text else message
    }
  }

  /** The user/assistant pairs of `turns`, oldest first. */
  function Dialogue(turns: seq<Turn>): seq<Message> {
    if turns == [] then []
    else
      var t := turns[|turns| - 1];
      Dialogue(turns[..|turns| - 1]) + [Message("user", t.prompt), Message("assistant", t.response)]
  }

  lemma {:induction false} DialogueShape(turns: seq<Turn>)
    ensures |Dialogue(turns)| == 2 * |turns|
    ensures forall i | 0 <= i < |turns| ::
      Dialogue(turns)[2 * i] == Message("user", turns[i].prompt) &&
      Dialogue(turns)[2 * i + 1] == Message("assistant", turns[i].response)
  {
    if turns != [] {
      var init := turns[..|turns| - 1];
      DialogueShape(init);
      forall i | 0 <= i < |init|
        ensures Dialogue(turns)[2 * i] == Message("user", turns[i].prompt)
        ensures Dialogue(turns)[2 * i + 1] == Message("assistant", turns[i].response)
      {
        assert turns[i] == init[i];
      }
    }
  }

  /** `mensajes`: the history window as messages, then the new user message. */
  function ChatMessages(history: seq<Turn>, mensaje: string): seq<Message> {
    Dialogue(Last(history, ChatWindow)) + [Message("user", mensaje)]
  }

  /**
   * With k = min(5, |history|) turns in the window: 2k+1 messages that
   * alternate user prompt and assistant response over those turns, oldest
   * first, and end with the new message.
   */
  lemma ChatMessagesShape(history: seq<Turn>, mensaje: string)
    ensures var k := Min(ChatWindow, |history|);
      var msgs := ChatMessages(history, mensaje);
      && |msgs| == 2 * k + 1
      && msgs[2 * k] == Message("user", mensaje)
      && (forall i | 0 <= i < k ::
            && msgs[2 * i] == Message("user", Last(history, ChatWindow)[i].prompt)
            && msgs[2 * i + 1] == Message("assistant", Last(history, ChatWindow)[i].response))
      && (forall i | 0 <= i < k :: Last(history, ChatWindow)[i] == history[|history| - k + i])
  {
    LastIsNewest(history, ChatWindow);
    DialogueShape(Last(history, ChatWindow));
  }

  /** The loop of `obtener_respuesta_openai` that fills `mensajes`. */
  method BuildChatMessages(history: seq<Turn>, mensaje: string) returns (msgs: seq<Message>)
    ensures msgs == ChatMessages(history, mensaje)
  {
    var recent := Last(history, ChatWindow);
    msgs := [];
    for i := 0 to |recent|
      invariant msgs == Dialogue(recent[..i])
    {
      assert recent[..i + 1][..i] == recent[..i];
      msgs := msgs + [Message("user", recent[i].prompt)];
      msgs := msgs + [Message("assistant", recent[i].response)];
    }
    assert recent[..|recent|] == recent;
    msgs := msgs + [Message("user", mensaje)];
  }

  function GeminiBlock(t: Turn): string {
    "Usuario: " + t.prompt + "\nAsistente: " + t.response + "\n\n"
  }

  /** `contexto`: one block per turn, oldest first. */
  function GeminiContext(turns: seq<Turn>): string {
    if turns == [] then ""
    else GeminiContext(turns[..|turns| - 1]) + GeminiBlock(turns[|turns| - 1])
  }

  function GeminiCue(mensaje: string): string {
    "Usuario: " + mensaje + "\nAsistente:"
  }

  /** `prompt_completo` */
  function GeminiPrompt(history: seq<Turn>, mensaje: string): string {
    GeminiContext(Last(history, GeminiWindow)) + GeminiCue(mensaje)
  }

  lemma {:induction false} GeminiContextAppend(a: seq<Turn>, b: seq<Turn>)
    ensures GeminiContext(a + b) == GeminiContext(a) + GeminiContext(b)
    decreases |b|
  {
    if b != [] {
      var b' := b[..|b| - 1];
      assert (a + b)[..|a + b| - 1] == a + b';
      GeminiContextAppend(a, b');
    } else {
      assert a + b == a;
    }
  }

  lemma ContextOfOne(x: Turn)
    ensures GeminiContext([x]) == GeminiBlock(x)
  {
    assert [x][..0] == [];
  }

  lemma ContextOfTwo(x: Turn, y: Turn)
    ensures GeminiContext([x, y]) == GeminiBlock(x) + GeminiBlock(y)
  {
    assert [x, y][..1] == [x];
    ContextOfOne(x);
  }

  lemma ContextOfThree(x: Turn, y: Turn, z: Turn)
    ensures GeminiContext([x, y, z]) == GeminiBlock(x) + GeminiBlock(y) + GeminiBlock(z)
  {
    assert [x, y, z][..2] == [x, y];
    ContextOfTwo(x, y);
  }

  /** The prompt is the blocks of the newest (at most three) turns, oldest first, then the cue. */
  lemma GeminiPromptShape(history: seq<Turn>, mensaje: string)
    ensures var n := |history|;
      && (n == 0 ==> GeminiPrompt(history, mensaje) == GeminiCue(mensaje))
      && (n == 1 ==> GeminiPrompt(history, mensaje) == GeminiBlock(history[0]) + GeminiCue(mensaje))
      && (n == 2 ==> GeminiPrompt(history, mensaje)
                     == GeminiBlock(history[0]) + GeminiBlock(history[1]) + GeminiCue(mensaje))
      && (n >= 3 ==> GeminiPrompt(history, mensaje)
                     == GeminiBlock(history[n - 3]) + GeminiBlock(history[n - 2])
                        + GeminiBlock(history[n - 1]) + GeminiCue(mensaje))
  {
    var n := |history|;
    var w := Last(history, GeminiWindow);
    if n == 0 {
      assert w == [];
    } else if n == 1 {
      assert w == [history[0]];
      ContextOfOne(history[0]);
    } else if n == 2 {
      assert w == [history[0], history[1]];
      ContextOfTwo(history[0], history[1]);
    } else {
      assert w == [history[n - 3], history[n - 2], history[n - 1]];
      ContextOfThree(history[n - 3], history[n - 2], history[n - 1]);
    }
  }

  /** The loop of `obtener_respuesta_gemini` that fills `contexto`. */
  method BuildGeminiPrompt(history: seq<Turn>, mensaje: string) returns (prompt: string)
    ensures prompt == GeminiPrompt(history, mensaje)
  {
    var recent := Last(history, GeminiWindow);
    var context := "";
    for i := 0 to |recent|
      invariant context == GeminiContext(recent[..i])
    {
      assert recent[..i + 1][..i] == recent[..i];
      context := context + GeminiBlock(recent[i]);
    }
    assert recent[..|recent|] == recent;
    prompt := context + GeminiCue(mensaje);
  }

  /** The Hugging Face reply: `generated_text` with every copy of the prompt deleted, then stripped. */
  function InferenceReply(generated: string, mensaje: string): (r: string)
    ensures |r| <= |generated|
    ensures r == [] || (!IsSpace(r[0]) && !IsSpace(r[|r| - 1]))
  {
    Strip(RemoveAll(generated, mensaje))
  }

  /** A completion that does not echo the prompt is only stripped. */
  lemma InferenceReplyWithoutEcho(generated: string, mensaje: string)
    requires !Contains(generated, mensaje)
    ensures InferenceReply(generated, mensaje) == Strip(generated)
  {
    RemoveAllAbsent(generated, mensaje);
  }

  /** Each echoed copy costs the reply |mensaje| characters; a bare echo leaves no reply at all. */
  lemma InferenceReplyDropsEchoes(generated: string, mensaje: string)
    requires mensaje != []
    ensures |InferenceReply(generated, mensaje)| <= |generated| - |mensaje| * Count(generated, mensaje)
    ensures InferenceReply(mensaje, mensaje) == []
  {
    RemoveAllLength(generated, mensaje);
    RemoveAllLeading(mensaje, []);
    assert mensaje + [] == mensaje;
  }

  // ------------------------------------------------------------- outcomes

  const TimeoutMessage: string := "⏰ Tiempo de espera agotado. Intenta de nuevo."
  const OpenAIKeyMissing: string := "❌ API key de OpenAI no configurada. Usa 'configurar openai' para establecerla."
  const GeminiKeyMissing: string := "❌ API key de Gemini no configurada. Usa 'configurar gemini' para establecerla."
  const NoValidCandidate: string := "❌ No se recibió respuesta válida de Gemini"
  const NoAdequateReply: string := "🤔 No pude generar una respuesta adecuada."
  const UnexpectedReply: string := "❌ Respuesta inesperada del modelo"
  const UnknownService: string := "❌ Servicio de IA no reconocido"

  function ChatRequestFor(keys: ApiKeys, history: seq<Turn>, mensaje: string): ChatRequest
    requires HasKey(keys, "openai")
  {
    ChatRequest(keys["openai"]["key"], "gpt-3.5-turbo", ChatMessages(history, mensaje), 500, 0.7, TimeoutSeconds)
  }

  function GenerateRequestFor(keys: ApiKeys, history: seq<Turn>, mensaje: string): GenerateRequest
    requires HasKey(keys, "gemini")
  {
    GenerateRequest(keys["gemini"]["key"], GeminiPrompt(history, mensaje), 0.7, 500, TimeoutSeconds)
  }

  function InferenceRequestFor(keys: ApiKeys, mensaje: string): InferenceRequest {
    var bearer := if HasKey(keys, "huggingface") then Some(keys["huggingface"]["key"]) else None;
    InferenceRequest(bearer, mensaje, TimeoutSeconds)
  }

  /** The text of an exception caught around a provider call, before `str(e)`. */
  function ConnectError(service: string): string {
    "❌ Error conectando con " + service + ": "
  }

  /** The text reporting a status other than 200. */
  function StatusError(service: string, status: nat): string {
    "❌ Error de " + service + ": " + NatToString(status)
  }

  /** What `obtener_respuesta_openai` makes of the call, once the request is sent. */
  function ReadChat(c: Call<ChatPayload>): (r: Outcome)
    ensures r.Replied? <==> c.Answered? && c.status == 200 && c.payload.ChatContent?
    ensures r.Replied? ==> r.text == c.payload.content
    ensures c.TimedOut? ==> r == Failed(TimeoutMessage)
    ensures c.Raised? ==> r == Failed(ConnectError("OpenAI") + c.error)
    ensures c.Answered? && c.status != 200 ==> r == Failed(StatusError("OpenAI", c.status) + " - " + c.body)
    ensures c.Answered? && c.status == 200 && c.payload.ChatMalformed? ==>
      r == Failed(ConnectError("OpenAI") + c.payload.error)
  {
    match c
    case TimedOut => Failed(TimeoutMessage)
    case Raised(e) => Failed(ConnectError("OpenAI") + e)
    case Answered(status, body, payload) =>
      if status != 200 then Failed(StatusError("OpenAI", status) + " - " + body)
      else
        match payload
        case ChatContent(content) => Replied(content)
        case ChatMalformed(e) => Failed(ConnectError("OpenAI") + e)
  }

  /** What `obtener_respuesta_gemini` makes of the call, once the request is sent. */
  function ReadGenerate(c: Call<GeminiPayload>): (r: Outcome)
    ensures r.Replied? <==> c.Answered? && c.status == 200 && c.payload.CandidateText?
    ensures r.Replied? ==> r.text == c.payload.text
    ensures c.TimedOut? ==> r == Failed(TimeoutMessage)
    ensures c.Raised? ==> r == Failed(ConnectError("Gemini") + c.error)
    ensures c.Answered? && c.status != 200 ==> r == Failed(StatusError("Gemini", c.status))
    ensures c.Answered? && c.status == 200 && c.payload.NoCandidates? ==> r == Failed(NoValidCandidate)
    ensures c.Answered? && c.status == 200 && c.payload.CandidateMalformed? ==>
      r == Failed(ConnectError("Gemini") + c.payload.error)
  {
    match c
    case TimedOut => Failed(TimeoutMessage)
    case Raised(e) => Failed(ConnectError("Gemini") + e)
    case Answered(status, _, payload) =>
      if status != 200 then Failed(StatusError("Gemini", status))
      else
        match payload
        case NoCandidates => Failed(NoValidCandidate)
        case CandidateText(text) => Replied(text)
        case CandidateMalformed(e) => Failed(ConnectError("Gemini") + e)
  }

  /** What `obtener_respuesta_huggingface` makes of the call for `mensaje`. */
  function ReadInference(c: Call<InferencePayload>, mensaje: string): (r: Outcome)
    ensures r.Replied? <==>
      c.Answered? && c.status == 200 && c.payload.Generated? && InferenceReply(c.payload.text, mensaje) != []
    ensures r.Replied? ==> r.text == InferenceReply(c.payload.text, mensaje)
    ensures c.TimedOut? ==> r == Failed(TimeoutMessage)
    ensures c.Raised? ==> r == Failed(ConnectError("Hugging Face") + c.error)
    ensures c.Answered? && c.status != 200 ==> r == Failed(StatusError("Hugging Face", c.status))
    ensures c.Answered? && c.status == 200 && c.payload.NotAList? ==> r == Failed(UnexpectedReply)
    ensures c.Answered? && c.status == 200 && c.payload.Generated? && InferenceReply(c.payload.text, mensaje) == [] ==>
      r == Failed(NoAdequateReply)
    ensures c.Answered? && c.status == 200 && c.payload.InferenceMalformed? ==>
      r == Failed(ConnectError("Hugging Face") + c.payload.error)
  {
    match c
    case TimedOut => Failed(TimeoutMessage)
    case Raised(e) => Failed(ConnectError("Hugging Face") + e)
    case Answered(status, _, payload) =>
      if status != 200 then Failed(StatusError("Hugging Face", status))
      else
        match payload
        case NotAList => Failed(UnexpectedReply)
        case InferenceMalformed(e) => Failed(ConnectError("Hugging Face") + e)
        case Generated(text) =>
          var reply := InferenceReply(text, mensaje);
          if reply != [] then Replied(reply) else Failed(NoAdequateReply)
  }

  /** `obtener_respuesta_openai`, up to the history update. */
  function OpenAIOutcome(keys: ApiKeys, history: seq<Turn>, mensaje: string,
                         endpoint: ChatRequest -> Call<ChatPayload>): (r: Outcome)
    ensures !HasKey(keys, "openai") ==> r == Failed(OpenAIKeyMissing)
    ensures HasKey(keys, "openai") ==> r == ReadChat(endpoint(ChatRequestFor(keys, history, mensaje)))
    ensures r.Replied? <==>
      && HasKey(keys, "openai")
      && var c := endpoint(ChatRequestFor(keys, history, mensaje));
         c.Answered? && c.status == 200 && c.payload.ChatContent?
    ensures r.Replied? ==> r.text == endpoint(ChatRequestFor(keys, history, mensaje)).payload.content
  {
    if !HasKey(keys, "openai") then Failed(OpenAIKeyMissing)
    else ReadChat(endpoint(ChatRequestFor(keys, history, mensaje)))
  }

  /** `obtener_respuesta_gemini`, up to the history update. */
  function GeminiOutcome(keys: ApiKeys, history: seq<Turn>, mensaje: string,
                         endpoint: GenerateRequest -> Call<GeminiPayload>): (r: Outcome)
    ensures !HasKey(keys, "gemini") ==> r == Failed(GeminiKeyMissing)
    ensures HasKey(keys, "gemini") ==> r == ReadGenerate(endpoint(GenerateRequestFor(keys, history, mensaje)))
    ensures r.Replied? <==>
      && HasKey(keys, "gemini")
      && var c := endpoint(GenerateRequestFor(keys, history, mensaje));
         c.Answered? && c.status == 200 && c.payload.CandidateText?
    ensures r.Replied? ==> r.text == endpoint(GenerateRequestFor(keys, history, mensaje)).payload.text
  {
    if !HasKey(keys, "gemini") then Failed(GeminiKeyMissing)
    else ReadGenerate(endpoint(GenerateRequestFor(keys, history, mensaje)))
  }

  /** `obtener_respuesta_huggingface`, up to the history update: no key is needed. */
  function HuggingFaceOutcome(keys: ApiKeys, mensaje: string,
                              endpoint: InferenceRequest -> Call<InferencePayload>): (r: Outcome)
    ensures r == ReadInference(endpoint(InferenceRequestFor(keys, mensaje)), mensaje)
    ensures r.Replied? <==>
      var c := endpoint(InferenceRequestFor(keys, mensaje));
      c.Answered? && c.status == 200 && c.payload.Generated? && InferenceReply(c.payload.text, mensaje) != []
    ensures r.Replied? ==>
      r.text == InferenceReply(endpoint(InferenceRequestFor(keys, mensaje)).payload.text, mensaje)
  {
    ReadInference(endpoint(InferenceRequestFor(keys, mensaje)), mensaje)
  }

  function ProviderOutcome(p: Provider, keys: ApiKeys, history: seq<Turn>, mensaje: string,
                           endpoints: Endpoints): Outcome
  {
    match p
    case OpenAI => OpenAIOutcome(keys, history, mensaje, endpoints.openai)
    case Gemini => GeminiOutcome(keys, history, mensaje, endpoints.gemini)
    case HuggingFace => HuggingFaceOutcome(keys, mensaje, endpoints.huggingface)
  }

  /** `obtener_respuesta_ia`, up to the history update: at most one provider is called. */
  function Answer(keys: ApiKeys, history: seq<Turn>, mensaje: string, service: string,
                  endpoints: Endpoints): (r: Outcome)
    ensures SelectProvider(keys, service).None? ==> r == Failed(UnknownService)
    ensures SelectProvider(keys, service).Some? ==>
      r == ProviderOutcome(SelectProvider(keys, service).value, keys, history, mensaje, endpoints)
  {
    match SelectProvider(keys, service)
    case None => Failed(UnknownService)
    case Some(p) => ProviderOutcome(p, keys, history, mensaje, endpoints)
  }

  /** The history after a call: one turn recorded on success, untouched on failure. */
  function Commit(history: seq<Turn>, mensaje: string, timestamp: string, o: Outcome): (r: seq<Turn>)
    ensures o.Failed? ==> r == history
    ensures o.Replied? ==> r != [] && r[|r| - 1] == Turn(timestamp, mensaje, o.text)
    ensures |history| <= MaxHistory ==> |r| <= MaxHistory
  {
    if o.Replied? then Record(history, Turn(timestamp, mensaje, o.text)) else history
  }

  /**
   * With no key configured, an utterance goes to Hugging Face; if that call
   * times out the caller is told so and the history is left as it was.
   */
  lemma UnconfiguredTimeout(history: seq<Turn>, mensaje: string, endpoints: Endpoints, timestamp: string)
    requires endpoints.huggingface(InferenceRequest(None, mensaje, TimeoutSeconds)).TimedOut?
    ensures Answer(map[], history, mensaje, "auto", endpoints) == Failed(TimeoutMessage)
    ensures Commit(history, mensaje, timestamp, Answer(map[], history, mensaje, "auto", endpoints)) == history
  {
  }

  /**
   * How writing config.json ends: written in full; `open(..., "w")` failed,
   * leaving the file as it was; or the file was truncated by `open` and the
   * dump then failed, leaving a file that no longer parses.
   */
  datatype Save = Written | NotOpened | CutShort

  /** `ConectorIA`: the credential mapping, its stored copy, and the conversation history. */
  class Connector {
    /** `api_keys` */
    var apiKeys: ApiKeys
    /** The contents of config.json; None while it is missing or unreadable. */
    var stored: Option<ApiKeys>
    /** `historial_conversacion` */
    var history: seq<Turn>

    ghost predicate Valid()
      reads this
    {
      |history| <= MaxHistory
    }

    /** `__init__`: keys from the stored document (or none), empty history. */
    constructor (document: Option<ApiKeys>)
      ensures Valid()
      ensures apiKeys == LoadApiKeys(document) && stored == document && history == []
    {
      apiKeys := LoadApiKeys(document);
      stored := document;
      history := [];
    }

    /**
     * `configurar_api_key`: the mapping is changed in place, so the new key
     * is in effect however writing config.json ends.
     */
    method ConfigureApiKey(service: string, key: string, save: Save)
      modifies this`apiKeys, this`stored
      ensures apiKeys == WithKey(old(apiKeys), service, key)
      ensures stored == match save
        case Written => Some(apiKeys)
        case NotOpened => old(stored)
        case CutShort => None
    {
      ghost var merged := WithKey(apiKeys, service, key);
      if service !in apiKeys {
        apiKeys := apiKeys[service := map[]];
      }
      apiKeys := apiKeys[service := apiKeys[service]["key" := key]];
      assert apiKeys == merged;
      match save {
        case Written => stored := Some(apiKeys);
        case NotOpened =>
        case CutShort => stored := None;
      }
    }

    /** `agregar_al_historial` */
    method AddToHistory(prompt: string, response: string, timestamp: string)
      requires Valid()
      modifies this`history
      ensures Valid()
      ensures history == Record(old(history), Turn(timestamp, prompt, response))
    {
      history := history + [Turn(timestamp, prompt, response)];
      if |history| > MaxHistory {
        history := history[|history| - MaxHistory..];
      }
    }

    /** Shared tail of the three provider methods: record the turn on success only. */
    method Settle(mensaje: string, timestamp: string, o: Outcome) returns (reply: string)
      requires Valid()
      modifies this`history
      ensures Valid()
      ensures reply == o.Text() && history == Commit(old(history), mensaje, timestamp, o)
    {
      if o.Replied? {
        AddToHistory(mensaje, o.text, timestamp);
      }
      reply := o.Text();
    }

    /** `obtener_respuesta_openai` */
    method AskOpenAI(mensaje: string, endpoint: ChatRequest -> Call<ChatPayload>, timestamp: string)
      returns (reply: string)
      requires Valid()
      modifies this`history
      ensures Valid()
      ensures var o := OpenAIOutcome(apiKeys, old(history), mensaje, endpoint);
        reply == o.Text() && history == Commit(old(history), mensaje, timestamp, o)
    {
      var o;
      if !HasKey(apiKeys, "openai") {
        o := Failed(OpenAIKeyMissing);
      } else {
        var msgs := BuildChatMessages(history, mensaje);
        var request := ChatRequest(apiKeys["openai"]["key"], "gpt-3.5-turbo", msgs, 500, 0.7, TimeoutSeconds);
        o := ReadChat(endpoint(request));
      }
      reply := Settle(mensaje, timestamp, o);
    }

    /** `obtener_respuesta_gemini` */
    method AskGemini(mensaje: string, endpoint: GenerateRequest -> Call<GeminiPayload>, timestamp: string)
      returns (reply: string)
      requires Valid()
      modifies this`history
      ensures Valid()
      ensures var o := GeminiOutcome(apiKeys, old(history), mensaje, endpoint);
        reply == o.Text() && history == Commit(old(history), mensaje, timestamp, o)
    {
      var o;
      if !HasKey(apiKeys, "gemini") {
        o := Failed(GeminiKeyMissing);
      } else {
        var prompt := BuildGeminiPrompt(history, mensaje);
        var request := GenerateRequest(apiKeys["gemini"]["key"], prompt, 0.7, 500, TimeoutSeconds);
        o := ReadGenerate(endpoint(request));
      }
      reply := Settle(mensaje, timestamp, o);
    }

    /** `obtener_respuesta_huggingface` */
    method AskHuggingFace(mensaje: string, endpoint: InferenceRequest -> Call<InferencePayload>,
                          timestamp: string)
      returns (reply: string)
      requires Valid()
      modifies this`history
      ensures Valid()
      ensures var o := HuggingFaceOutcome(apiKeys, mensaje, endpoint);
        reply == o.Text() && history == Commit(old(history), mensaje, timestamp, o)
    {
      var bearer := None;
      if HasKey(apiKeys, "huggingface") {
        bearer := Some(apiKeys["huggingface"]["key"]);
      }
      var o := ReadInference(endpoint(InferenceRequest(bearer, mensaje, TimeoutSeconds)), mensaje);
      reply := Settle(mensaje, timestamp, o);
    }

    /** `obtener_respuesta_ia` */
    method Ask(mensaje: string, service: string, endpoints: Endpoints, timestamp: string)
      returns (reply: string)
      requires Valid()
      modifies this`history
      ensures Valid()
      ensures var o := Answer(apiKeys, old(history), mensaje, service, endpoints);
        reply == o.Text() && history == Commit(old(history), mensaje, timestamp, o)
    {
      var choice := SelectProvider(apiKeys, service);
      match choice {
        case None =>
          reply := UnknownService;
        case Some(OpenAI) =>
          reply := AskOpenAI(mensaje, endpoints.openai, timestamp);
        case Some(Gemini) =>
          reply := AskGemini(mensaje, endpoints.gemini, timestamp);
        case Some(HuggingFace) =>
          reply := AskHuggingFace(mensaje, endpoints.huggingface, timestamp);
      }
    }
  }
}

=== FILE: rules.dfy ===
/**
 * The ordered rule tables both command classifiers are built from: each
 * rule is a test on the normalised utterance, and the first rule whose
 * test passes decides the branch.
 */
module Rules {
  import opened Text

  /** One rule's test: `s.startswith(prefix)`, or `any(w in s for w in words)`. */
  datatype Test = Prefix(prefix: string) | AnyOf(words: seq<string>)

  /** `any(w in s for w in words)` */
  predicate AnyIn(s: string, words: seq<string>) {
    exists i | 0 <= i < |words| :: Contains(s, words[i])
  }

  /** None of `words` is in `s` when each has a character (the `ks[i]`-th) that `s` lacks. */
  lemma NoWordByChar(s: string, words: seq<string>, ks: seq<nat>)
    requires |ks| == |words|
    requires forall i | 0 <= i < |words| :: ks[i] < |words[i]| && words[i][ks[i]] !in s
    ensures !AnyIn(s, words)
  {
    forall i | 0 <= i < |words|
      ensures !Contains(s, words[i])
    {
      NotContainsByChar(s, words[i], ks[i]);
    }
  }

  predicate Passes(t: Test, s: string) {
    match t
    case Prefix(p) => StartsWith(s, p)
    case AnyOf(ws) => AnyIn(s, ws)
  }

  /** The index of the first test that `s` passes, or |tests| when it passes none. */
  function FirstPassing(tests: seq<Test>, s: string): (i: nat)
    ensures i <= |tests|
    ensures i < |tests| ==> Passes(tests[i], s)
    ensures forall j | 0 <= j < i :: !Passes(tests[j], s)
  {
    if tests == [] then 0
    else if Passes(tests[0], s) then 0
    else 1 + FirstPassing(tests[1..], s)
  }

  /** In a table split in two, the first passing rule is in the first part if any rule there passes. */
  lemma {:induction false} FirstPassingAppend(a: seq<Test>, b: seq<Test>, s: string)
    ensures FirstPassing(a + b, s) ==
      if FirstPassing(a, s) < |a| then FirstPassing(a, s) else |a| + FirstPassing(b, s)
    decreases |a|
  {
    if a == [] {
      assert a + b == b;
    } else {
      assert (a + b)[1..] == a[1..] + b;
      FirstPassingAppend(a[1..], b, s);
    }
  }

  /** The three properties of FirstPassing determine it. */
  lemma FirstPassingUnique(tests: seq<Test>, s: string, i: nat)
    requires i <= |tests|
    requires i < |tests| ==> Passes(tests[i], s)
    requires forall j | 0 <= j < i :: !Passes(tests[j], s)
    ensures FirstPassing(tests, s) == i
  {
  }

  /** The page `webbrowser.open` is asked to show for the browser command. */
  const HomePage: string := "https://www.google.com"

  const SearchBase: string := "https://www.google.com/search?q="

  /** The Google query for `term`, spaces written as `+`. */
  function SearchUrl(term: string): (url: string)
    ensures ' ' !in url
  {
    ReplaceCharSpec(term, ' ', '+');
    SearchBase + ReplaceChar(term, ' ', '+')
  }

  /** The query URL is the base followed by the term, character for character, each space as `+`. */
  lemma SearchUrlSpellsTerm(term: string)
    ensures |SearchUrl(term)| == |SearchBase| + |term| && SearchUrl(term)[..|SearchBase|] == SearchBase
    ensures forall i | 0 <= i < |term| ::
      SearchUrl(term)[|SearchBase| + i] == if term[i] == ' ' then '+' else term[i]
  {
  }

  /** `random.choice(options)`, the random draw being passed in as `pick`. */
  function Choose(options: seq<string>, pick: nat): (r: string)
    requires options != []
    ensures r in options
  {
    options[pick % |options|]
  }

  /** Every option can be drawn. */
  lemma ChooseCovers(options: seq<string>, k: nat)
    requires k < |options|
    ensures Choose(options, k) == options[k]
  {
  }
}

/** The clock reading the assistants format (`datetime.datetime.now()`), passed in as a value. */
module Clock {
  import opened Text

  /** datetime.MINYEAR .. datetime.MAXYEAR */
  type Year = y: int | 1 <= y <= 9999 witness 1
  type Month = m: int | 1 <= m <= 12 witness 1
  type Day = d: int | 1 <= d <= 31 witness 1
  /** `weekday()`: Monday is 0, Sunday is 6. */
  type Weekday = w: int | 0 <= w <= 6
  type Hour = h: int | 0 <= h <= 23
  type Minute = m: int | 0 <= m <= 59

  datatype DateTime = DateTime(year: Year, month: Month, day: Day, weekday: Weekday, hour: Hour, minute: Minute)

  /** `now.strftime("%H:%M")`: the hour and minute, each read back from its two digits. */
  function HourMinute(now: DateTime): (s: string)
    ensures |s| == 5 && s[2] == ':' && AllDigits(s[..2]) && AllDigits(s[3..])
    ensures ParseDecimal(s[..2]) == now.hour && ParseDecimal(s[3..]) == now.minute
  {
    var h, m := TwoDigits(now.hour), TwoDigits(now.minute);
    assert (h + ":" + m)[..2] == h && (h + ":" + m)[3..] == m;
    h + ":" + m
  }
}

=== FILE: search_term.dfy ===
/**
 * The search-term extraction of `AsistenteVirtual.procesar_comando` in
 * asistente_reparado.py: every keyword is deleted from the utterance in
 * turn, the remainder being stripped after each deletion.
 */
module SearchTerms {
  import opened Text

  /** The search keywords, in the order the source lists them. */
  const SearchWords: seq<string> := ["busca", "buscar", "search"]

  /** One round of the search-term loop: delete every `p`, then strip. */
  function Step(s: string, p: string): string {
    Strip(RemoveAll(s, p))
  }

  /** The loop `for k in keywords: termino = termino.replace(k, "").strip()`. */
  function RemoveEach(s: string, keywords: seq<string>): string
    decreases |keywords|
  {
    if keywords == [] then s else RemoveEach(Step(s, keywords[0]), keywords[1..])
  }

  /** The keywords in the order the source lists them. */
  function SearchTermAsListed(c: string): string {
    RemoveEach(c, SearchWords)
  }

  /** The keywords with "buscar" before its prefix "busca". */
  const LongestFirst: seq<string> := ["buscar", "busca", "search"]

  function SearchTerm(c: string): string {
    RemoveEach(c, LongestFirst)
  }

  /** A search term as a user would type it: stripped, non-empty, and free of the keywords. */
  predicate PlainTerm(t: string) {
    && t != [] && Strip(t) == t
    && !Contains(t, "busca") && !Contains(t, "buscar") && !Contains(t, "search")
  }

  /** A stripped string without `p` goes through a round unchanged. */
  lemma {:induction false} StepAbsent(s: string, p: string)
    requires !Contains(s, p) && Strip(s) == s
    ensures Step(s, p) == s
  {
    RemoveAllAbsent(s, p);
  }

  /** A word that starts with a non-space, before a stripped non-empty `t`, is stripped already. */
  lemma {:induction false} StrippedAfterWord(w: string, t: string)
    requires w != [] && !IsSpace(w[0]) && t != [] && Strip(t) == t
    ensures Strip(w + t) == w + t
  {
    assert (w + t)[|w + t| - 1] == t[|t| - 1];
    StripOfStripped(w + t);
  }

  /**
   * A round on `p` leaves `w` + `t` unchanged when `w` starts with a
   * non-space and lacks `p`'s first character and `t` is stripped and holds no `p`.
   */
  lemma {:induction false} StepPassesWord(w: string, t: string, p: string)
    requires w != [] && !IsSpace(w[0]) && t != [] && Strip(t) == t
    requires p != [] && p[0] !in w && !Contains(t, p)
    ensures Step(w + t, p) == w + t
  {
    StrippedAfterWord(w, t);
    ContainsAfter(w, t, p);
    StepAbsent(w + t, p);
  }

  /** A round on `p` + " " + `t` leaves exactly `t` when `t` is stripped and holds no `p`. */
  lemma {:induction false} StepLeading(p: string, t: string)
    requires p != [] && p[0] != ' ' && !Contains(t, p) && t != [] && Strip(t) == t
    ensures Step(p + " " + t, p) == t
  {
    calc {
      RemoveAll(p + " " + t, p);
      { assert p + " " + t == p + ([' '] + t); }
      RemoveAll(p + ([' '] + t), p);
      { RemoveAllLeading(p, [' '] + t); }
      RemoveAll([' '] + t, p);
      { RemoveAllAfter([' '], t, p); }
      [' '] + RemoveAll(t, p);
      { RemoveAllAbsent(t, p); }
      [' '] + t;
    }
    StripSpaceCons(' ', t);
  }

  /** The listed loop, unrolled. */
  lemma {:induction false} ListedRounds(s: string)
    ensures SearchTermAsListed(s) == Step(Step(Step(s, "busca"), "buscar"), "search")
  {
    assert SearchWords[1..] == ["buscar", "search"] && SearchWords[1..][1..] == ["search"];
    assert SearchWords[1..][1..][1..] == [];
  }

  /** The corrected loop, unrolled. */
  lemma {:induction false} SearchTermRounds(s: string)
    ensures SearchTerm(s) == Step(Step(Step(s, "buscar"), "busca"), "search")
  {
    assert LongestFirst[1..] == ["busca", "search"] && LongestFirst[1..][1..] == ["search"];
    assert LongestFirst[1..][1..][1..] == [];
  }

  /** Deleting "busca" from "buscar " + `t` cuts the keyword short and leaves "r " + `t`. */
  lemma {:induction false} BuscaInsideBuscar(t: string)
    requires PlainTerm(t)
    ensures Step("buscar " + t, "busca") == "r " + t
  {
    calc {
      RemoveAll("buscar " + t, "busca");
      { assert "buscar " + t == "busca" + ("r " + t); RemoveAllLeading("busca", "r " + t); }
      RemoveAll("r " + t, "busca");
      { RemoveAllAfter("r ", t, "busca"); RemoveAllAbsent(t, "busca"); }
      "r " + t;
    }
    StrippedAfterWord("r ", t);
  }

  /** "r " before a plain term goes through the rounds on "buscar" and "search" unchanged. */
  lemma {:induction false} RSurvivesRest(t: string)
    requires PlainTerm(t)
    ensures Step(Step("r " + t, "buscar"), "search") == "r " + t
  {
    StepPassesWord("r ", t, "buscar");
    StepPassesWord("r ", t, "search");
  }

  /**
   * Keyword deletion in the listed order: "busca" is deleted from inside
   * "buscar", so "buscar " followed by a plain term leaves "r " before it.
   */
  lemma {:induction false} ListedOrderLeavesR(t: string)
    requires PlainTerm(t)
    ensures SearchTermAsListed("buscar " + t) == "r " + t
  {
    ListedRounds("buscar " + t);
    BuscaInsideBuscar(t);
    RSurvivesRest(t);
  }

  /** "buscar " before a plain term leaves the term. */
  lemma {:induction false} BuscarExtracts(t: string)
    requires PlainTerm(t)
    ensures SearchTerm("buscar" + " " + t) == t
  {
    SearchTermRounds("buscar" + " " + t);
    StepLeading("buscar", t);
    StepAbsent(t, "busca");
    StepAbsent(t, "search");
  }

  /** "busca " + `t` holds "buscar" only if `t` does: the sixth character is ' ', not 'r'. */
  lemma {:induction false} BuscaLacksBuscar(t: string)
    requires PlainTerm(t)
    ensures !Contains("busca" + " " + t, "buscar")
  {
    var s := "busca" + " " + t;
    assert !StartsWith(s, "buscar") by {
      assert s[5] != "buscar"[5];
    }
    assert s[1..] == "usca " + t;
    ContainsAfter("usca ", t, "buscar");
  }

  lemma {:induction false} BuscaSurvivesBuscar(t: string)
    requires PlainTerm(t)
    ensures Step("busca" + " " + t, "buscar") == "busca" + " " + t
  {
    StrippedAfterWord("busca" + " ", t);
    BuscaLacksBuscar(t);
    StepAbsent("busca" + " " + t, "buscar");
  }

  /** "busca " before a plain term leaves the term: "buscar" is not in it. */
  lemma {:induction false} BuscaExtracts(t: string)
    requires PlainTerm(t)
    ensures SearchTerm("busca" + " " + t) == t
  {
    SearchTermRounds("busca" + " " + t);
    BuscaSurvivesBuscar(t);
    StepLeading("busca", t);
    StepAbsent(t, "search");
  }

  /** "search " before a plain term goes through the rounds on "buscar" and "busca" unchanged. */
  lemma {:induction false} SearchSurvivesBuscas(t: string)
    requires PlainTerm(t)
    ensures Step(Step("search" + " " + t, "buscar"), "busca") == "search" + " " + t
  {
    StepPassesWord("search" + " ", t, "buscar");
    StepPassesWord("search" + " ", t, "busca");
  }

  /** "search " before a plain term leaves the term. */
  lemma {:induction false} SearchExtracts(t: string)
    requires PlainTerm(t)
    ensures SearchTerm("search" + " " + t) == t
  {
    SearchTermRounds("search" + " " + t);
    SearchSurvivesBuscas(t);
    StepLeading("search", t);
  }

  /** With "buscar" first, each keyword followed by a plain term leaves exactly the term. */
  lemma {:induction false} LongestFirstExtracts(kw: string, t: string)
    requires kw in SearchWords && PlainTerm(t)
    ensures SearchTerm(kw + " " + t) == t
  {
    var k :| 0 <= k < |SearchWords| && SearchWords[k] == kw;
    if k == 0 {
      BuscaExtracts(t);
    } else if k == 1 {
      BuscarExtracts(t);
    } else {
      SearchExtracts(t);
    }
  }

  /** Running the loop from keyword `i` on: one round on `keywords[i]`, then the rest. */
  lemma RemoveEachFrom(s: string, keywords: seq<string>, i: nat)
    requires i < |keywords|
    ensures RemoveEach(s, keywords[i..]) == RemoveEach(Step(s, keywords[i]), keywords[i + 1..])
  {
    assert keywords[i..][1..] == keywords[i + 1..];
  }

  /** The search-term loop of `procesar_comando`, run over `keywords`. */
  method ExtractSearchTerm(comando: string, keywords: seq<string>) returns (termino: string)
    ensures termino == RemoveEach(comando, keywords)
  {
    termino := comando;
    for i := 0 to |keywords|
      invariant RemoveEach(termino, keywords[i..]) == RemoveEach(comando, keywords)
    {
      RemoveEachFrom(termino, keywords, i);
      termino := Strip(RemoveAll(termino, keywords[i]));
    }
    assert keywords[|keywords|..] == [];
  }

}

=== FILE: text.dfy ===
/** The optional value used throughout the model. */
module Optional {
  datatype Option<+T> = None | Some(value: T) {
    function GetOr(default: T): T {
      match this
      case Some(v) => v
      case None => default
    }
  }
}

/**
 * The part of Python's `str` that both assistants rely on: `lower()`,
 * `strip()`, `split()`, the substring test `p in s`, `startswith`,
 * `replace` and `str()` of a natural number.  Strings are sequences of
 * Unicode scalar values, as Python's are.
 */
module Text {

  /** Python's `c.isspace()`: the characters `strip()` and `split()` treat as whitespace. */
  predicate IsSpace(c: char) {
    || c == ' '
    || ('\t' <= c <= '\r')
    || ('\U{1C}' <= c <= '\U{1F}')
    || c == '\U{85}' || c == '\U{A0}' || c == '\U{1680}'
    || ('\U{2000}' <= c <= '\U{200A}')
    || c == '\U{2028}' || c == '\U{2029}' || c == '\U{202F}' || c == '\U{205F}' || c == '\U{3000}'
  }

  predicate AllSpace(s: string) {
    forall i | 0 <= i < |s| :: IsSpace(s[i])
  }

  predicate NoSpace(s: string) {
    forall i | 0 <= i < |s| :: !IsSpace(s[i])
  }

  /** Capital letters of ASCII and of Latin-1 (which hold the Spanish Á, É, Í, Ñ, Ó, Ú, Ü). */
  predicate IsUpper(c: char) {
    ('A' <= c <= 'Z') || ('\U{C0}' <= c <= '\U{DE}' && c != '\U{D7}')
  }

  function LowerChar(c: char): char {
    if IsUpper(c) then (c as int + 32) as char else c
  }

  /** `s.lower()`, restricted to the capitals of IsUpper. */
  function Lower(s: string): string {
    seq(|s|, i requires 0 <= i < |s| => LowerChar(s[i]))
  }

  lemma LowerFolds(s: string)
    ensures |Lower(s)| == |s|
    ensures forall i | 0 <= i < |s| :: !IsUpper(Lower(s)[i])
    ensures forall i | 0 <= i < |s| :: IsSpace(Lower(s)[i]) <==> IsSpace(s[i])
    ensures forall i | 0 <= i < |s| && !IsUpper(s[i]) :: Lower(s)[i] == s[i]
    ensures forall i | 0 <= i < |s| && IsUpper(s[i]) :: Lower(s)[i] as int == s[i] as int + 32
    ensures Lower(Lower(s)) == Lower(s)
  {
  }

  /** `s.lstrip()`: drops the longest all-whitespace prefix. */
  function TrimStart(s: string): (r: string)
    ensures |r| <= |s| && r == s[|s| - |r|..]
    ensures AllSpace(s[..|s| - |r|])
    ensures r == [] || !IsSpace(r[0])
    decreases |s|
  {
    if |s| > 0 && IsSpace(s[0]) then
      var r := TrimStart(s[1..]);
      assert s[..|s| - |r|] == [s[0]] + s[1..][..|s| - 1 - |r|];
      r
    else s
  }

  /** `s.rstrip()`: drops the longest all-whitespace suffix. */
  function TrimEnd(s: string): (r: string)
    ensures |r| <= |s| && r == s[..|r|]
    ensures AllSpace(s[|r|..])
    ensures r == [] || !IsSpace(r[|r| - 1])
    decreases |s|
  {
    if |s| > 0 && IsSpace(s[|s| - 1]) then
      var r := TrimEnd(s[..|s| - 1]);
      assert s[|r|..] == s[..|s| - 1][|r|..] + [s[|s| - 1]];
      r
    else s
  }

  /** `s.strip()` */
  function Strip(s: string): (r: string)
    ensures |r| <= |s|
    ensures r == [] || (!IsSpace(r[0]) && !IsSpace(r[|r| - 1]))
  {
    TrimEnd(TrimStart(s))
  }

  /** What strip removes is whitespace, and what it keeps is one contiguous piece of `s`. */
  lemma StripIsInfix(s: string) returns (i: nat)
    ensures i + |Strip(s)| <= |s|
    ensures Strip(s) == s[i..i + |Strip(s)|]
    ensures AllSpace(s[..i]) && AllSpace(s[i + |Strip(s)|..])
  {
    var t := TrimStart(s);
    var r := TrimEnd(t);
    i := |s| - |t|;
    assert s[i + |r|..] == t[|r|..];
  }

  lemma StripEmptyIff(s: string)
    ensures Strip(s) == [] <==> AllSpace(s)
  {
    var i := StripIsInfix(s);
    if Strip(s) == [] {
      assert s == s[..i] + s[i..];
    } else {
      assert s[i] == Strip(s)[0];
    }
  }

  lemma {:induction false} TrimStartOfTrimmed(s: string)
    requires s == [] || !IsSpace(s[0])
    ensures TrimStart(s) == s
  {
  }

  lemma StripIdempotent(s: string)
    ensures Strip(Strip(s)) == Strip(s)
  {
    var r := Strip(s);
    TrimStartOfTrimmed(r);
    if r != [] {
      assert TrimEnd(r) == r;
    }
  }

  /** Leading whitespace never survives strip. */
  lemma StripSpaceCons(c: char, s: string)
    requires IsSpace(c)
    ensures Strip([c] + s) == Strip(s)
  {
    assert ([c] + s)[1..] == s;
  }

  /** A string that is already stripped is its own strip. */
  lemma StripOfStripped(s: string)
    requires s == [] || (!IsSpace(s[0]) && !IsSpace(s[|s| - 1]))
    ensures Strip(s) == s
  {
    TrimStartOfTrimmed(s);
  }

  /** `s.startswith(p)` */
  predicate StartsWith(s: string, p: string) {
    |p| <= |s| && s[..|p|] == p
  }

  /** Python's `p in s` on strings: `p` occurs in `s` as a contiguous piece. */
  predicate Contains(s: string, p: string)
    decreases |s|
  {
    StartsWith(s, p) || (|s| > 0 && Contains(s[1..], p))
  }

  ghost predicate OccursAt(s: string, p: string, i: int) {
    0 <= i && i + |p| <= |s| && s[i..i + |p|] == p
  }

  lemma {:induction false} ContainsIffOccurs(s: string, p: string)
    ensures Contains(s, p) <==> exists i :: OccursAt(s, p, i)
    decreases |s|
  {
    if |s| > 0 {
      ContainsIffOccurs(s[1..], p);
    }
    if Contains(s, p) {
      if StartsWith(s, p) {
        assert OccursAt(s, p, 0);
      } else {
        var i :| OccursAt(s[1..], p, i);
        assert s[i + 1..i + 1 + |p|] == s[1..][i..i + |p|];
        assert OccursAt(s, p, i + 1);
      }
    }
    if exists i :: OccursAt(s, p, i) {
      var i :| OccursAt(s, p, i);
      if i == 0 {
        assert StartsWith(s, p);
      } else {
        assert s[1..][i - 1..i - 1 + |p|] == s[i..i + |p|];
        assert OccursAt(s[1..], p, i - 1);
      }
    }
  }

  /** Prepending a character that cannot start `p` adds no occurrence of `p`. */
  lemma ContainsCons(c: char, s: string, p: string)
    requires p != [] && c != p[0]
    ensures Contains([c] + s, p) <==> Contains(s, p)
  {
    assert ([c] + s)[1..] == s;
  }

  /** If one character of `p` is missing from `s`, `p` is not in `s`. */
  lemma {:induction false} NotContainsByChar(s: string, p: string, k: nat)
    requires k < |p| && p[k] !in s
    ensures !Contains(s, p)
    decreases |s|
  {
    if |s| > 0 {
      NotContainsByChar(s[1..], p, k);
    }
  }

  /** A prefix none of whose characters can start `p` adds no occurrence of `p`. */
  lemma {:induction false} ContainsAfter(w: string, t: string, p: string)
    requires p != [] && p[0] !in w
    ensures Contains(w + t, p) <==> Contains(t, p)
    decreases |w|
  {
    if w == [] {
      assert w + t == t;
    } else {
      assert w + t == [w[0]] + (w[1..] + t);
      ContainsCons(w[0], w[1..] + t, p);
      ContainsAfter(w[1..], t, p);
    }
  }

  /**
   * `s.replace(p, "")`: every non-overlapping occurrence of `p`, found
   * scanning from the left, is deleted.  An empty `p` leaves `s` alone.
   */
  function RemoveAll(s: string, p: string): (r: string)
    ensures |r| <= |s|
    decreases |s|
  {
    if p == [] || |s| < |p| then s
    else if s[..|p|] == p then RemoveAll(s[|p|..], p)
    else [s[0]] + RemoveAll(s[1..], p)
  }

  /** `s.count(p)` for a non-empty `p`: the occurrences RemoveAll deletes. */
  function Count(s: string, p: string): nat
    requires p != []
    decreases |s|
  {
    if |s| < |p| then 0
    else if s[..|p|] == p then 1 + Count(s[|p|..], p)
    else Count(s[1..], p)
  }

  /** RemoveAll deletes exactly Count copies of `p` and nothing else. */
  lemma {:induction false} RemoveAllLength(s: string, p: string)
    requires p != []
    ensures |RemoveAll(s, p)| + |p| * Count(s, p) == |s|
    decreases |s|
  {
    if |s| < |p| {
    } else if s[..|p|] == p {
      var rest := s[|p|..];
      RemoveAllLength(rest, p);
      var c := Count(rest, p);
      assert Count(s, p) == c + 1;
      assert RemoveAll(s, p) == RemoveAll(rest, p);
      MulSucc(|p|, c);
    } else {
      RemoveAllLength(s[1..], p);
      assert Count(s, p) == Count(s[1..], p);
      assert |RemoveAll(s, p)| == 1 + |RemoveAll(s[1..], p)|;
    }
  }

  lemma MulSucc(a: int, c: int)
    ensures a * (c + 1) == a * c + a
  {
  }

  /** Without an occurrence of `p`, replace leaves `s` as it is. */
  lemma {:induction false} RemoveAllAbsent(s: string, p: string)
    requires !Contains(s, p)
    ensures RemoveAll(s, p) == s
    decreases |s|
  {
    if p != [] && |s| >= |p| {
      RemoveAllAbsent(s[1..], p);
      assert s == [s[0]] + s[1..];
    }
  }

  /** A leading copy of `p` is always deleted. */
  lemma RemoveAllLeading(p: string, s: string)
    requires p != []
    ensures RemoveAll(p + s, p) == RemoveAll(s, p)
  {
    assert (p + s)[..|p|] == p;
    assert (p + s)[|p|..] == s;
  }

  /** A first character that cannot start `p` is always kept. */
  lemma RemoveAllKeepsHead(c: char, s: string, p: string)
    requires p != [] && c != p[0]
    ensures RemoveAll([c] + s, p) == [c] + RemoveAll(s, p)
  {
    if |[c] + s| >= |p| {
      assert ([c] + s)[..|p|][0] == c;
      assert ([c] + s)[1..] == s;
    }
  }

  /** A prefix none of whose characters can start `p` is kept whole. */
  lemma {:induction false} RemoveAllAfter(w: string, t: string, p: string)
    requires p != [] && p[0] !in w
    ensures RemoveAll(w + t, p) == w + RemoveAll(t, p)
    decreases |w|
  {
    if w == [] {
      assert w + t == t;
    } else {
      var rest := w[1..];
      calc {
        RemoveAll(w + t, p);
        { assert w + t == [w[0]] + (rest + t); }
        RemoveAll([w[0]] + (rest + t), p);
        { RemoveAllKeepsHead(w[0], rest + t, p); }
        [w[0]] + RemoveAll(rest + t, p);
        { RemoveAllAfter(rest, t, p); }
        [w[0]] + (rest + RemoveAll(t, p));
        { assert w == [w[0]] + rest; }
        w + RemoveAll(t, p);
      }
    }
  }

  /**
   * When `s` ends in a character other than the last one of `p`, that
   * character survives, so the result is not empty.
   */
  lemma {:induction false} RemoveAllKeepsLast(s: string, p: string)
    requires p != [] && s != [] && s[|s| - 1] != p[|p| - 1]
    ensures RemoveAll(s, p) != [] && RemoveAll(s, p)[|RemoveAll(s, p)| - 1] == s[|s| - 1]
    decreases |s|
  {
    if |s| < |p| {
    } else if s[..|p|] == p {
      assert |s| == |p| ==> s == p;
      assert s[|p|..][|s[|p|..]| - 1] == s[|s| - 1];
      RemoveAllKeepsLast(s[|p|..], p);
    } else if |s| == 1 {
    } else {
      assert s[1..][|s[1..]| - 1] == s[|s| - 1];
      RemoveAllKeepsLast(s[1..], p);
    }
  }

  /** `s.replace(a, b)` for one-character `a` and `b`. */
  function ReplaceChar(s: string, a: char, b: char): string {
    seq(|s|, i requires 0 <= i < |s| => if s[i] == a then b else s[i])
  }

  lemma ReplaceCharSpec(s: string, a: char, b: char)
    requires a != b
    ensures |ReplaceChar(s, a, b)| == |s|
    ensures a !in ReplaceChar(s, a, b)
    ensures forall i | 0 <= i < |s| && s[i] != a :: ReplaceChar(s, a, b)[i] == s[i]
  {
  }

  /** The longest space-free prefix of `t`. */
  function TakeWord(t: string): (w: string)
    ensures |w| <= |t| && w == t[..|w|] && NoSpace(w)
    ensures |w| == |t| || IsSpace(t[|w|])
    decreases |t|
  {
    if t == [] || IsSpace(t[0]) then [] else [t[0]] + TakeWord(t[1..])
  }

  /** A word of `split()`: non-empty and free of whitespace. */
  predicate IsWord(w: string) {
    w != [] && NoSpace(w)
  }

  /** `s.split()`: the maximal runs of non-whitespace, in order. */
  function Words(s: string): (ws: seq<string>)
    ensures forall i | 0 <= i < |ws| :: IsWord(ws[i])
    decreases |s|
  {
    var t := TrimStart(s);
    if t == [] then []
    else
      var w := TakeWord(t);
      var rest := Words(t[|w|..]);
      PrependWord(w, rest);
      [w] + rest
  }

  lemma PrependWord(w: string, rest: seq<string>)
    requires IsWord(w) && forall i | 0 <= i < |rest| :: IsWord(rest[i])
    ensures forall i | 0 <= i < |rest| + 1 :: IsWord(([w] + rest)[i])
  {
  }

  /** A space-free `w` followed by nothing or by whitespace is what TakeWord takes. */
  lemma {:induction false} TakeWordOf(w: string, rest: string)
    requires NoSpace(w) && (rest == [] || IsSpace(rest[0]))
    ensures TakeWord(w + rest) == w
    decreases |w|
  {
    if w == [] {
      assert w + rest == rest;
    } else {
      assert (w + rest)[1..] == w[1..] + rest;
      TakeWordOf(w[1..], rest);
    }
  }

  /** A word followed by nothing or by whitespace is the first word `split()` finds. */
  lemma WordsAppendWord(w: string, rest: string)
    requires IsWord(w) && (rest == [] || IsSpace(rest[0]))
    ensures Words(w + rest) == [w] + Words(rest)
  {
    var s := w + rest;
    assert TrimStart(s) == s;
    TakeWordOf(w, rest);
    assert s[|w|..] == rest;
  }

  /** Leading whitespace does not change the words. */
  lemma WordsSkipsSpace(c: char, s: string)
    requires IsSpace(c)
    ensures Words([c] + s) == Words(s)
  {
    assert ([c] + s)[1..] == s;
  }

  /** A word, whitespace, a second word and a rest that starts with whitespace: the two words lead. */
  lemma WordsTwoWords(w: string, sep: char, v: string, rest: string)
    requires IsWord(w) && IsSpace(sep) && IsWord(v) && (rest == [] || IsSpace(rest[0]))
    ensures Words(w + ([sep] + (v + rest))) == [w] + ([v] + Words(rest))
  {
    WordsAppendWord(w, [sep] + (v + rest));
    WordsSkipsSpace(sep, v + rest);
    WordsAppendWord(v, rest);
  }

  /** Nothing is left of an all-whitespace string once its leading whitespace is dropped. */
  lemma {:induction false} TrimStartOfAllSpace(s: string)
    requires AllSpace(s)
    ensures TrimStart(s) == []
    decreases |s|
  {
    if s != [] {
      TrimStartOfAllSpace(s[1..]);
    }
  }

  /** `split()` finds no word exactly in an all-whitespace string. */
  lemma WordsEmptyIff(s: string)
    ensures Words(s) == [] <==> AllSpace(s)
  {
    if AllSpace(s) {
      TrimStartOfAllSpace(s);
    } else {
      assert s[..|s|] == s;
    }
  }

  /** `s.lower().strip()`, the normal form both classifiers test. */
  function Normalize(s: string): string {
    Strip(Lower(s))
  }

  /** A string without capitals is its own lower case. */
  lemma LowerIdentity(s: string)
    requires forall i | 0 <= i < |s| :: !IsUpper(s[i])
    ensures Lower(s) == s
  {
  }

  /** Strip keeps a piece of its input, so it adds no capital. */
  lemma StripKeepsLower(l: string)
    requires forall k | 0 <= k < |l| :: !IsUpper(l[k])
    ensures forall k | 0 <= k < |Strip(l)| :: !IsUpper(Strip(l)[k])
  {
    var i := StripIsInfix(l);
    var t := Strip(l);
    forall k | 0 <= k < |t|
      ensures !IsUpper(t[k])
    {
      assert t[k] == l[i + k];
    }
  }

  /** Normalising twice is normalising once, so the classifiers see every normal form as itself. */
  lemma NormalizeIdempotent(s: string)
    ensures Normalize(Normalize(s)) == Normalize(s)
  {
    LowerFolds(s);
    StripKeepsLower(Lower(s));
    LowerIdentity(Strip(Lower(s)));
    StripIdempotent(Lower(s));
  }

  predicate IsDigit(c: char) {
    '0' <= c <= '9'
  }

  predicate AllDigits(s: string) {
    forall i | 0 <= i < |s| :: IsDigit(s[i])
  }

  function DigitChar(d: nat): char
    requires d < 10
  {
    ('0' as int + d) as char
  }

  /** `str(n)` for a natural number. */
  function NatToString(n: nat): (s: string)
    ensures s != [] && AllDigits(s)
    ensures |s| > 1 ==> s[0] != '0'
  {
    if n < 10 then [DigitChar(n)] else NatToString(n / 10) + [DigitChar(n % 10)]
  }

  /** `int(s)` for a string of decimal digits; the inverse of NatToString. */
  function ParseDecimal(s: string): nat
    requires AllDigits(s)
  {
    if s == [] then 0 else 10 * ParseDecimal(s[..|s| - 1]) + (s[|s| - 1] as int - '0' as int)
  }

  lemma {:induction false} NatToStringRoundTrip(n: nat)
    ensures ParseDecimal(NatToString(n)) == n
  {
    if n >= 10 {
      var s := NatToString(n);
      assert s[..|s| - 1] == NatToString(n / 10);
      NatToStringRoundTrip(n / 10);
    }
  }

  /** `s` is how `str(n)` writes n: a run of digits, without a leading zero, that reads back as n. */
  predicate ReadsAs(s: string, n: nat) {
    s != [] && AllDigits(s) && (|s| > 1 ==> s[0] != '0') && ParseDecimal(s) == n
  }

  /** `"%02d" % n`: what strftime writes for %H, %M and %d. */
  function TwoDigits(n: nat): (s: string)
    requires n < 100
    ensures |s| == 2 && AllDigits(s) && ParseDecimal(s) == n
  {
    var s := [DigitChar(n / 10), DigitChar(n % 10)];
    assert s[..1] == [DigitChar(n / 10)] && s[..1][..0] == [];
    assert ParseDecimal(s[..1]) == n / 10;
    s
  }
}
